=== FILE: README.md ===
# Temporary-credential remote login of the Yodoo client add-ons

This project models the core of the Odoo add-ons `yodoo_client`, `odoo_infrastructure_client` (its predecessor) and the oldest root-level add-on. A managing server uses their HTTP API to get into a client database as the administrator without knowing any password:

- **Mint.** The server proves it holds the instance's shared secret by sending its SHA-256 digest. The add-on then stores a row of temporary credentials in the database: a random user, a random password, an expiry, and a random 128-symbol `token_temp`. It answers with a URL whose last segment is the base64 encoding of `db:token_temp:digest`.
- **Redeem.** Opening the URL decodes it and checks the digest and the feature flag. It then looks up a live row carrying that `token_temp`, logs in with the row's pair, and deletes the row, so the URL works once.
- **Log in.** The `res.users` overrides accept a live token pair as the superuser. The oldest override compares lower-cased values and has no expiry.
- **Sweep and log.** A scheduler removes expired rows. An auth log expires entries and kills their sessions.

Around the protocol sit the guards every controller runs in a fixed order:

- the shared-secret check (404 when no secret is configured, 403 on a wrong digest);
- the feature flags;
- `require_db_param` (400 when the name is missing, 440 when the database does not exist);
- the database lifecycle endpoints (exists, create, duplicate, rename, drop, backup, restore, base URL);
- the per-request database filter;
- the easy-backup download gate and its settings screen;
- the version split of the version-info endpoint.

Modelling choices:

- **Text and time.** Text of the login protocol is its UTF-8 bytes (`Common.Bytes`). Time is whole seconds.
- **The database catalogue.** It is a map from names to databases. Each database is its credential table plus its system parameters.
- **Parameters for what the add-ons call out to.** SHA-256 is a function parameter `digest`. The `uuid4` values and the result of `shuffle` are inputs (`Minting.Choices`). The regular expressions of the database filter and of the base-URL check are inputs too. So is whatever the database service answers (a creation raises or the database did not come up initialised, a duplicate, rename or drop raises, the parameters a copy gets reset, a drop is declined, a restore or dump fails).
- **Failures.** An exception no controller catches is status 500.
- **The two generations.** `Common.Variant` selects the URL prefix (`/saas/client/auth/` or `/saas_auth/`). It also selects the status for a URL whose row is gone (404 or 403). Raising an HTTP exception and returning the same response are not told apart.

## Model

| member | source | states |
|---|---|---|
| RandomToken.Generate | yodoo_client/utils.py:36-41 | for any permutation the shuffle produces, the password has length min(n, 186), only ASCII letters and digits, and no symbol more than three times (same code in odoo_infrastructure_client/utils.py:39-44) |
| RandomToken.LettersCount | yodoo_client/utils.py:37-39 | the shuffled pool holds every letter and digit exactly three times and nothing else |
| Minting.EffectiveTtl | yodoo_client/utils.py:45 | a missing or zero ttl becomes 3600 seconds; any other ttl is kept |
| Minting.PrepareAuthData | yodoo_client/utils.py:44-56 | `token_temp` is 128 alphanumeric symbols, `expire` is exactly the effective ttl after now, the user and password are the two uuids, and `temp_url` is the variant's prefix followed by the base64 of `db:token_temp:hash` |
| Minting.TokenIsField | yodoo_client/utils.py:37-41 | a generated token is valid UTF-8 and contains no ':' |
| Minting.PayloadParses | yodoo_client/controllers/client.py:97-98 | the payload `db:temp:hash` of three colon-free UTF-8 fields decodes and splits back into exactly those three fields |
| Minting.TempUrlRoundTrip | yodoo_client/utils.py:47-52 | base64-decoding the minted URL's last segment and splitting it on ':' gives back (db, token_temp, hash) whenever db and hash contain no ':' |
| Minting.Mint | yodoo_client/controllers/client.py:64-86 | minting succeeds iff the digest passes, the database exists and credentials access is on; refusals come in that order (404/403, then 400/440, then 403) and change nothing; success adds exactly one row to that database, equal to the answered data, and nothing else changes |
| Minting.VariantsMintAlike | odoo_infrastructure_client/controllers/odoo_infrastructure_auth.py:29-51 | the predecessor's mint answers and stores the same as the newer one except for the URL prefix |
| Guards.CheckToken | yodoo_client/utils.py:59-75 | an unset or empty secret gives 404 before any comparison; otherwise the check passes iff the supplied value equals the SHA-256 digest of the secret, else 403 |
| Guards.UnsetSecretRefusesAll | yodoo_client/utils.py:67-70 | with no secret every supplied digest gets the same 404 |
| Guards.OneDigestPasses | yodoo_client/utils.py:72-75 | with a secret at most one supplied value passes |
| DbControllers.CheckTokenIsVerdict | odoo_infrastructure_client/utils.py:89-109 | the check answers pass, 404 or 403 and nothing else; the predecessor returns these responses instead of raising them |
| Guards.RequireTokenFromRequest | yodoo_client/http_decorators.py:23-28 | the digest checked is the `X-YODOO-TOKEN` header when present, otherwise the `token_hash` parameter |
| Guards.HeaderOverridesParam | yodoo_client/http_decorators.py:24-26 | when the header is present the parameter has no influence on the verdict |
| Guards.AdminAccessOptions | yodoo_client/utils.py:78-88 | each flag is on unless the configuration sets it to false, so both default to true |
| Guards.Feature | yodoo_client/controllers/client.py:69-74 | a disabled feature is refused with 403 and an enabled one passes |
| Guards.RequireDb | yodoo_client/utils.py:244-258 | a missing or empty db gives 400, a db not in the catalogue gives 440, and the handler runs iff the db exists |
| Guards.TokenThenDb | yodoo_client/http_decorators.py:17-47 | a handler behind both decorators runs iff both checks pass, and a token failure is the answer whatever the db |
| Guards.TokenHidesDatabases | yodoo_client/utils.py:230-258 | a request failing the token check gets the same answer for every db name, so it learns nothing about which databases exist |
| Users.AnyPair | yodoo_client/models/res_users.py:12-20 | the `_login` query finds a row iff some row matches the pair under the variant's condition |
| Users.Login | yodoo_client/models/res_users.py:8-22 | an empty login or password is refused without looking at the table; a matching row gives the superuser; otherwise the parent's answer is returned |
| Users.CheckCredentials | yodoo_client/models/res_users.py:24-40 | the password check passes iff some row has this token password (no expiry check) or the parent check passes |
| Users.ExpiredPasswordStillChecks | odoo_infrastructure_client/models/res_users.py:8-32 | an expired row's pair no longer logs in, yet its password still passes the credentials check |
| Users.OldestIgnoresExpiry | models/res_users.py:13-21 | in the oldest override an expired row whose values are lower case still logs in as the superuser |
| Users.OldestUpperCaseFallsThrough | models/res_users.py:13-25 | in the oldest override a login holding an upper-case letter never matches a row (the stored side is lower-cased, the supplied side is not), so the parent decides |
| Users.RedeemedRowLogsIn | yodoo_client/controllers/client.py:113-127 | the pair of the row a redemption selects logs in as the superuser |
| CredentialStore.Insert | yodoo_client/controllers/client.py:76-85 | the insert appends one row with the given fields and a new id, and keeps ids unique |
| CredentialStore.Lookup | yodoo_client/controllers/client.py:113-120 | the lookup returns a row of the table with this `token_temp` and `expire` after now, and finds nothing iff no such row exists |
| CredentialStore.DeleteId | yodoo_client/controllers/client.py:128-132 | exactly the row with that id disappears |
| CredentialStore.Sweep | odoo_infrastructure_client/models/odoo_infrastructure_client_auth.py:19-22 | the sweep keeps exactly the rows with `expire` not before now, leaves them unchanged, and returns true |
| CredentialStore.SweepIdempotent | odoo_infrastructure_client/models/odoo_infrastructure_client_auth.py:21 | a second sweep at the same instant removes nothing |
| CredentialStore.SweepPreservesLookup | odoo_infrastructure_client/models/odoo_infrastructure_client_auth.py:21 | sweeping at or before the moment of a redemption never changes which row that redemption finds |
| CredentialStore.SweepScenario | run_tests.py:132-165 | a row minted with a ttl of 300 survives a sweep; once its expiry is moved back an hour the sweep removes it |
| CredentialStore.Create | odoo_infrastructure_client/models/odoo_infrastructure_client_auth.py:12-17 | an ORM create keeps every earlier row and appends one with a fresh id storing the given user, password and token, with the given expiry or the field default when none is given |
| CredentialStore.StaleDefaultIsBornExpired | odoo_infrastructure_client/models/odoo_infrastructure_client_auth.py:14-16 | as written, the default is fixed when the class loads, so a row created without expiry an hour after start-up is already expired |
| CredentialStore.DefaultExpire | odoo_infrastructure_client/models/odoo_infrastructure_client_auth.py:14-16 | the intended default lies after the creation time |
| CredentialStore.FreshDefaultIsLive | odoo_infrastructure_client/models/odoo_infrastructure_client_auth.py:14-16 | under the intended default, a row created without expiry is live for the next hour |
| Redemption.ParseToken | yodoo_client/controllers/client.py:96-102 | a base64 failure gives 400; a payload that is not UTF-8 or does not split into exactly three parts gives 500, because those exceptions are not caught; otherwise the three parts are returned |
| Redemption.ParseTokenStrict | yodoo_client/controllers/client.py:96-102 | the corrected parse: every malformed URL gives 400, and well-formed ones parse as before |
| Redemption.RedeemParsed | yodoo_client/controllers/client.py:104-133 | precedence is digest (404/403), then URL flag (403), then database (500), then lookup (404 or 403 by variant); every refusal leaves the catalogue unchanged; a request that passes every check and has a live matching row is redirected, with the login of the found row's pair, and exactly that row is deleted |
| Redemption.Redeem | yodoo_client/controllers/client.py:95-133 | a URL that is not base64 gives 400 and changes nothing; a redirect implies the URL parsed and named an existing database |
| Redemption.RedeemStrict | yodoo_client/controllers/client.py:95-133 | the corrected redemption answers 400 for every malformed URL and otherwise behaves like the original |
| Protocol.ParseMinted | yodoo_client/utils.py:47-52 | the URL of a mint parses back into the minting database, its `token_temp` and the supplied digest |
| Protocol.MintFor | yodoo_client/controllers/client.py:64-86 | with a configured secret and the correct digest, minting succeeds iff the database exists and credentials access is on |
| Protocol.RedeemOnlyCarrier | yodoo_client/controllers/client.py:113-132 | when exactly one live row carries the token, redemption logs in with that row and removes it |
| Protocol.AfterMint | yodoo_client/controllers/client.py:75-86 | after a mint the new row is the only one carrying its `token_temp`, and it stays live until the ttl runs out |
| Protocol.MintThenRedeem | yodoo_client/controllers/client.py:66-133 | redeeming a freshly minted URL before it expires redirects as the superuser and leaves the table as it was before the mint |
| Protocol.ReplayRefused | yodoo_client/controllers/client.py:128-132 | after one successful redemption of a token only one row carried, the same URL is refused as a missing row at any later time and changes nothing |
| Protocol.ExpiredUrlRefused | yodoo_client/controllers/client.py:117-124 | a minted URL opened at or after its expiry is refused and changes nothing |
| Protocol.VariantsRedeemAlike | odoo_infrastructure_client/controllers/odoo_infrastructure_auth.py:60-98 | both generations redeem identically except for the status of a missing row (404 or 403) |
| Protocol.ChecksPrecedeLookup | yodoo_client/controllers/client.py:104-113 | when the digest or the URL flag refuses, the answer does not depend on the catalogue at all |
| Protocol.SweepInvisibleToRedeem | odoo_infrastructure_client/models/odoo_infrastructure_client_auth.py:19-22 | a sweep that ran at or before the redemption does not change its answer |
| Protocol.SplitFailureIsServerError | yodoo_client/controllers/client.py:98-99 | as written, the valid base64 of `a:b` is answered with 500 and not 400 |
| Protocol.NonUtf8IsServerError | yodoo_client/controllers/client.py:97-99 | as written, `gA==` (base64 of the lone continuation byte 0x80, with no '/' so the `<token>` route accepts it) is answered with 500, and with 400 under the intended parse |
| Protocol.StrictDiffersOnlyOnMalformed | yodoo_client/controllers/client.py:96-102 | the corrected redemption changes the answer only for malformed URLs, and there only to 400 |
| OldestAuth.MintOldest | controllers/odoo_infrastructure_auth.py:27-46 | an unknown database or a raw token that differs from the configured one gives an error body and no insert; success inserts one row without `token_temp` and answers exactly its three fields; a missing parameter crashes |
| OldestAuth.RawTokenComparison | controllers/odoo_infrastructure_auth.py:30-32 | the oldest mint compares the raw secret, so the digest the newer add-ons expect is refused there |
| OldestAuth.OldestRowsNotRedeemable | controllers/odoo_infrastructure_auth.py:33-40 | rows of the oldest mint carry no `token_temp`, so no redemption URL ever finds them |
| AuthLog.ActionExpire | yodoo_client/models/yodoo_client_auth_log.py:18-22 | the selected entries become expired, the others are unchanged, and exactly their sessions leave the session store |
| AuthLog.Overdue | yodoo_client/models/yodoo_client_auth_log.py:25-26 | the search selects exactly the entries whose `login_expire` is set and before now |
| AuthLog.SchedulerExpiresExactlyOverdue | yodoo_client/models/yodoo_client_auth_log.py:24-27 | the scheduler expires an entry iff it is overdue, and leaves the state of every other entry alone |
| AuthLog.SchedulerKillsOverdueSessions | yodoo_client/models/yodoo_client_auth_log.py:20-27 | an overdue entry's session is gone from the store after the scheduler |
| AuthLog.ActionExpireIdempotent | yodoo_client/models/yodoo_client_auth_log.py:18-22 | expiring the same entries twice is the same as expiring them once |
| AuthLog.SchedulerIdempotent | yodoo_client/models/yodoo_client_auth_log.py:24-27 | running the scheduler twice at the same instant is the same as running it once |
| DbFilter.Matching | yodoo_client/hooks.py:14 | the result holds exactly the names that match the pattern, each as many times as in the input, in their original order |
| DbFilter.HeaderFilter | yodoo_client/hooks.py:8-14 | with no or an empty `X-Odoo-Dbfilter` header the original list comes back; otherwise exactly the matching names, each as many times as in the list, in their order |
| DbFilter.ActiveFilter | yodoo_client/hooks.py:17-19 | the header filter applies only when `yodoo_db_filter` is configured |
| DbFilter.FilterNeverWidens | yodoo_client/hooks.py:8-19 | whatever the configuration and header, every listed database comes from the original list |
| Base64.Encode | yodoo_client/utils.py:48 | the encoding has four symbols for every started group of three bytes, as in section 4 of RFC 4648 |
| Base64.DecodeEncode | yodoo_client/controllers/client.py:97 | decoding an encoding gives the bytes back |
| Base64.TruncatedIsRejected | yodoo_client/controllers/client.py:97-102 | an encoding with its last symbol cut off is rejected (a 400 on redemption) |
| Base64.EncodingHasNoSlash | yodoo_client/utils.py:48-52 | the encoding of ASCII text without '?' or DEL has no '/', so the token is one path segment of the URL |
| Text.SplitJoin | yodoo_client/controllers/client.py:98 | splitting on ':' undoes joining colon-free pieces with ':' |
| Text.Utf8Append | yodoo_client/utils.py:47-48 | concatenating well-formed UTF-8 texts gives well-formed UTF-8 |
| DbControllers.Admitted | yodoo_client/controllers/db.py:38-39 | the two decorators pass iff the token passes and the db exists; a token refusal is answered first |
| DbControllers.Exists | yodoo_client/controllers/db.py:38-41 | exists answers 200 iff the token passes and the database exists, and the guard's status otherwise |
| DbControllers.Create | yodoo_client/controllers/db.py:63-90 | token, then a missing name (400), then an existing name (409), all before anything is created; a creation that raises anything but `DatabaseExists` gives 500 and adds nothing; otherwise the name holds the created database, which stays even when it is not initialised and the answer is 500; success answers OK, or `successfully` in odoo_infrastructure_client/controllers/odoo_infrastructure_db_create.py |
| DbControllers.TargetFree | yodoo_client/controllers/db.py:102-107 | a missing new name gives 400 and an existing one 409 |
| DbControllers.Duplicate | yodoo_client/controllers/db.py:99-111 | after the guards, a missing or taken new name is refused with the catalogue unchanged; an exception from `exp_duplicate_database` gives 500 with the catalogue unchanged; 200 iff the guards pass and the service returns, and then the new name holds the source's credential table and its parameters, except that the default parameters Odoo re-initialises take their reset values, and every database is kept |
| DbControllers.DuplicateResetsBaseUrl | yodoo_client/controllers/db.py:109-111 | a copy gets the reset `web.base.url`, not the one configured on the source, and the source is unchanged |
| DbControllers.Rename | yodoo_client/controllers/db.py:120-132 | after the guards, a missing or taken new name is refused with the catalogue unchanged; an exception from `exp_rename` gives 500 with the catalogue unchanged; 200 iff the guards pass and the service returns |
| DbControllers.RenameMoves | tests/test_db_management.py:121-132 | after a rename the source name is absent, the target holds the source's database, and every other database is unchanged |
| DbControllers.Drop | yodoo_client/controllers/db.py:141-147 | after the guards, `exp_drop` answering false gives 403 and raising gives 500, both changing nothing; 200 iff it drops, and then exactly that database is removed |
| DbControllers.Backup | yodoo_client/controllers/db.py:155-179 | after the guards, an access refusal of the dump gives 403 and any other failure 500; a dump is served as `<db>.<format>` |
| DbControllers.Restore | yodoo_client/controllers/db.py:187-209 | without `require_db_param`: a missing name gives 400 and an existing one 409; then the service's outcome gives 200, 403 or 500; a success adds the restored database, a failure after Odoo's `restore_db` created the empty database leaves that empty database under the name, and every other answer changes nothing |
| DbControllers.FailedRestoreBlocksRetry | yodoo_client/controllers/db.py:190-205 | after a restore that failed past the creation of the empty database, retrying the same restore is answered 409 |
| DbControllers.RestoreNeverNotExists | yodoo_client/controllers/db.py:187-194 | restore never answers 440 |
| DbControllers.ConfigureBaseUrl | yodoo_client/controllers/db.py:218-241 | an empty URL or one without a host gives 400; success sets `web.base.url` to the URL and `mail.catchall.domain` to its host, and keeps every other parameter and database |
| DbControllers.GuardedReport | odoo_infrastructure_client/controllers/db.py:84-106 | the statistics and users-info endpoints check the token before the database and answer 200 only when both pass |
| EasyBackup.SetParam | yodoo_easy_backup/models/res_config_settings.py:43-51 | writing false removes a system parameter; writing a value stores it; no other parameter changes |
| EasyBackup.SetValues | yodoo_easy_backup/models/res_config_settings.py:40-52 | saving stores the public flag as a truthy value iff it is set; allowing backups stores the new uuid as the token; disallowing removes the token; nothing else changes |
| EasyBackup.GetValues | yodoo_easy_backup/models/res_config_settings.py:31-38 | the screen shows "allow" iff a token is stored, and "public" iff the public flag is truthy |
| EasyBackup.SettingsRoundTrip | yodoo_easy_backup/models/res_config_settings.py:31-52 | saving and reading back the settings gives the saved check boxes |
| EasyBackup.BackupUrl | yodoo_easy_backup/models/res_config_settings.py:15-28 | the URL exists iff a token is stored, and is `/yodoo_easy_backup/` followed by exactly that token |
| EasyBackup.Admit | yodoo_easy_backup/controllers/main.py:93-107 | the route passes iff (public backups are on or the user is a system user) and a token is stored and equals the path's token; every refusal is 403, and the access check comes first |
| EasyBackup.Serve | yodoo_easy_backup/controllers/main.py:92-141 | a dump is served iff the gate passes and the dump succeeds, under the name `<db>-<timestamp>.zip`; a gate refusal is answered before any dump |
| EasyBackup.ShownUrlIsAccepted | yodoo_easy_backup/models/res_config_settings.py:46-48 | after allowing backups, the URL the screen shows is accepted by the route for anyone (public) or for a system user |
| EasyBackup.DisallowedRefusesAll | yodoo_easy_backup/models/res_config_settings.py:49-51 | after disallowing backups no token is accepted and no URL is shown |
| EasyBackup.ResaveRevokes | yodoo_easy_backup/models/res_config_settings.py:46-48 | saving again with backups allowed replaces the token, so the old URL is refused |
| EasyBackup.PublicStillNeedsToken | yodoo_easy_backup/controllers/main.py:94-107 | public backups do not lift the token check: a different token is refused as wrong |
| VersionInfo.Serie | yodoo_client/controllers/client.py:36-40 | the serie's '.'-components are the first two components of the version (all of them when there are fewer) |
| VersionInfo.ClientVersion | yodoo_client/controllers/client.py:36-41 | the client version's '.'-components are the last three components of the version (all of them when there are fewer) |
| VersionInfo.SerieIsPrefix | odoo_infrastructure_client/utils.py:63-71 | the serie is a leading part of the version, followed by nothing or by '.' and the remaining components |
| VersionInfo.ClientVersionIsSuffix | odoo_infrastructure_client/utils.py:63-71 | the client version is a trailing part of the version, preceded by nothing or by the leading components and '.' |
| VersionInfo.FiveComponents | yodoo_client/controllers/client.py:36-41 | for a five-component version, serie, '.' and client version spell the version |

## Left out

- Server, database and module statistics, and the users-info listing. These are OS and SQL calls. Only the guards in front of them are modelled (`DbControllers.GuardedReport`).
- The mechanics of backup and restore (`pg_dump`, zip files, temporary files, the manifest). The service's outcome is an input of `DbControllers.Create`, `DbControllers.Duplicate`, `DbControllers.Rename`, `DbControllers.Drop`, `DbControllers.Backup`, `DbControllers.Restore` and `EasyBackup.Serve`. An `AccessDenied` that the duplicate, rename and drop controllers do not catch is taken to be a 500 like any other uncaught exception.
- The `db/list` endpoint. Its answer is the server's own database list behind the token guard.
- Mail-server configuration and its deletion. These are ORM writes and SMTP/IMAP connections.
- The module install, upgrade and uninstall controllers. They are ORM calls.
- Dashboards, the login page, manifests and scripts.
- SHA-256 is an uninterpreted `digest` function. `uuid4` and `shuffle` are inputs (any permutation for the shuffle). Regular-expression matching is a predicate parameter.
- Session authentication is recorded as the `_login` result in the redirect's session. Odoo's `authenticate` raising for a refused login depends on the Odoo version.
- The session store is a set of session ids. An auth-log entry without a session id deletes nothing.
- Concurrent redemptions. The lookup and the delete run in two separate transactions, so two simultaneous redemptions of one URL can both succeed. The model is sequential.
- Minting.EffectiveTtl: HTTP parameters arrive as strings and the model takes the ttl as an optional integer, so the string "0" (truthy in Python, hence kept, then `int()` gives 0 seconds) is not modelled; only a missing or integer-zero ttl becomes 3600.
- Datetime formatting is whole seconds.
- PostgreSQL `lower()` is modelled on ASCII letters only.
- `fetchone` picks some matching row. The model picks the first in insertion order.
- The `metods=` spelling in the route declarations has no effect on the modelled behaviour.
- `yodoo_client/http_decorators.py` imports `DatabaseNotExists` from an `exceptions` module that is not part of this model. It is taken to be the 440 exception of `yodoo_client/utils.py`.
- The predecessor's controllers import `require_saas_token`, `require_db_param`, `conflict` and `server_error` from its `utils.py`, which does not define them. They are taken to behave like the newer add-on's, with the same statuses.
- `yodoo_client/controllers/db.py` imports `str_filter_falsy`, which its `utils.py` does not define. Create is modelled as if the import succeeded.
- Minting.Mint: a ttl that `int()` cannot parse, or one so large that `timedelta` or the `datetime` addition overflows (an uncaught 500 with nothing inserted), is not modelled, because the ttl and the clock are unbounded integers.
- OldestAuth.MintOldest: the same two ttl failures of `int(ttl)` and the `datetime` addition (an uncaught 500 with nothing inserted) are not modelled, for the same reason.
- Odoo's `service.db` functions are not part of this model. `DbControllers.CreateOutcome` takes from `_create_empty_database` and `_initialize_db` that a creation failure leaves no database and an initialisation failure leaves it in place. The `reset` input of `DbControllers.Duplicate` takes from `exp_duplicate_database` that the copy's default parameters are re-initialised.
- EasyBackup.SetValues: the public flag is stored as `str(True)` or removed. The model stores "True" or removes the parameter, which is what Odoo's `set_param` does with a boolean.
- The restore outcome takes from Odoo's `restore_db` that the empty database is created before the dump is loaded, so a later failure can leave it behind (`DbControllers.RestoreOutcome.Failed`).
- DbControllers.Rename: its contract does not state the new catalogue; `DbControllers.RenameMoves` states it.

## Findings

| source | as written | input that shows it | evidently intended | confidence | as-written member | corrected member |
|---|---|---|---|---|---|---|
| yodoo_client/controllers/client.py:96-102 | only `binascii.Error` and `TypeError` are caught, so a URL that is valid base64 but whose payload is not UTF-8 or does not split into three parts raises an uncaught exception (500); the predecessor's controller (odoo_infrastructure_client/controllers/odoo_infrastructure_auth.py:61-67) does the same | the URL token `YTpi` (base64 of `a:b`), or `gA==` (base64 of the byte 0x80, not valid UTF-8) | every malformed URL is a bad request (400) | not executed | Protocol.SplitFailureIsServerError | Protocol.StrictDiffersOnlyOnMalformed |
| odoo_infrastructure_client/models/odoo_infrastructure_client_auth.py:14-16 | the `expire` default is an expression evaluated once, when the class is defined, so every later row created without `expire` gets that same instant | a row created without `expire` one hour or more after the server started | one hour after the row's creation | not executed | CredentialStore.StaleDefaultIsBornExpired | CredentialStore.FreshDefaultIsLive |

=== FILE: auth_log.dfy ===
/** `yodoo.client.auth.log`: one entry per remote login, with the session
    it opened. Expiring an entry kills its session and marks it expired;
    the scheduler expires the entries whose `login_expire` has passed.
    Records are addressed by their position; the server's session store is
    the set of live session ids. */
module AuthLog {
  import opened Common

  datatype LoginState = Active | Expired

  /** `login_expire`, `login_session`, `login_state` and `login_remote_uuid`
      may be NULL; `login_date` is required. */
  datatype Entry = Entry(
    loginDate: int,
    loginExpire: Option<int>,
    loginSession: Option<string>,
    loginState: Option<LoginState>,
    remoteUuid: Option<string>)

  datatype Log = Log(entries: seq<Entry>, sessions: set<string>)

  /** The session ids of the selected entries. */
  function SessionsOf(entries: seq<Entry>, selected: set<nat>): (ids: set<string>)
    ensures forall s :: s in ids <==>
      exists k :: 0 <= k < |entries| && k in selected && entries[k].loginSession == Some(s)
  {
    set k | 0 <= k < |entries| && k in selected && entries[k].loginSession.Some? :: entries[k].loginSession.value
  }

  /** `action_expire` on the selected records: each one's session is removed
      from the store and its state becomes expired. Records outside the
      selection and every other field keep their values. */
  function ActionExpire(log: Log, selected: set<nat>): (r: Log)
    ensures |r.entries| == |log.entries|
    ensures forall k :: 0 <= k < |log.entries| ==>
      r.entries[k] == (if k in selected then log.entries[k].(loginState := Some(Expired)) else log.entries[k])
    ensures forall s :: s in r.sessions <==> s in log.sessions && s !in SessionsOf(log.entries, selected)
  {
    var entries := seq(|log.entries|, k requires 0 <= k < |log.entries| =>
      if k in selected then log.entries[k].(loginState := Some(Expired)) else log.entries[k]);
    Log(entries, log.sessions - SessionsOf(log.entries, selected))
  }

  /** The records the scheduler's search selects: `login_expire < now`; a
      NULL `login_expire` never compares. */
  function Overdue(entries: seq<Entry>, now: int): (selected: set<nat>)
    ensures forall k: nat :: k in selected <==>
      k < |entries| && entries[k].loginExpire.Some? && entries[k].loginExpire.value < now
  {
    set k: nat | k < |entries| && entries[k].loginExpire.Some? && entries[k].loginExpire.value < now
  }

  /** `scheduler_logout_expired()` at time `now`. */
  function SchedulerLogoutExpired(log: Log, now: int): (r: Log) {
    ActionExpire(log, Overdue(log.entries, now))
  }

  /** The scheduler expires exactly the entries strictly past
      `login_expire`; every other entry keeps its state. */
  lemma SchedulerExpiresExactlyOverdue(log: Log, now: int, k: nat)
    requires k < |log.entries|
    ensures var e := log.entries[k];
      var after := SchedulerLogoutExpired(log, now).entries[k];
      (e.loginExpire.Some? && e.loginExpire.value < now ==> after.loginState == Some(Expired))
      && (!(e.loginExpire.Some? && e.loginExpire.value < now) ==> after == e)
  {}

  /** No session of an overdue entry survives the scheduler, and the
      sessions of the other entries are left to live unless an overdue entry
      shares them. */
  lemma SchedulerKillsOverdueSessions(log: Log, now: int, k: nat)
    requires k < |log.entries| && log.entries[k].loginSession.Some?
    ensures var e := log.entries[k];
      var s := e.loginSession.value;
      var after := SchedulerLogoutExpired(log, now);
      (e.loginExpire.Some? && e.loginExpire.value < now ==> s !in after.sessions)
      && (s in after.sessions <==> s in log.sessions && s !in SessionsOf(log.entries, Overdue(log.entries, now)))
  {}

  /** Expiring the same records again changes nothing: the state stays
      expired and the sessions are already gone. */
  lemma ActionExpireIdempotent(log: Log, selected: set<nat>)
    ensures ActionExpire(ActionExpire(log, selected), selected) == ActionExpire(log, selected)
  {
    var once := ActionExpire(log, selected);
    var twice := ActionExpire(once, selected);
    assert SessionsOf(once.entries, selected) == SessionsOf(log.entries, selected) by {
      forall s ensures s in SessionsOf(once.entries, selected) <==> s in SessionsOf(log.entries, selected) {
        if s in SessionsOf(log.entries, selected) {
          var k :| 0 <= k < |log.entries| && k in selected && log.entries[k].loginSession == Some(s);
          assert once.entries[k].loginSession == Some(s);
        }
      }
    }
    assert twice.entries == once.entries;
    assert twice.sessions == once.sessions;
  }

  /** Running the scheduler twice at the same time is the same as once. */
  lemma SchedulerIdempotent(log: Log, now: int)
    ensures SchedulerLogoutExpired(SchedulerLogoutExpired(log, now), now) == SchedulerLogoutExpired(log, now)
  {
    var once := SchedulerLogoutExpired(log, now);
    assert Overdue(once.entries, now) == Overdue(log.entries, now);
    ActionExpireIdempotent(log, Overdue(log.entries, now));
  }
}

=== FILE: base64.dfy ===
/** Base64 as in section 4 of RFC 4648 (alphabet `A-Z a-z 0-9 + /`, `=`
    padding): the encoder behind Python's `base64.b64encode`, and the decoder
    behind `base64.b64decode`, which is CPython's `binascii.a2b_base64` in its
    default non-strict mode: bytes outside the alphabet are skipped, a pad
    that completes a quad ends the input, and input that stops inside a quad
    is an error (`binascii.Error`). */
module Base64 {
  import opened Common
  import opened Text

  const PAD: byte := 61

  /** The alphabet symbol of a 6-bit value. */
  function Symbol(v: int): (c: byte)
    requires 0 <= v < 64
    ensures c != PAD
  {
    if v < 26 then 65 + v
    else if v < 52 then 97 + (v - 26)
    else if v < 62 then 48 + (v - 52)
    else if v == 62 then 43
    else 47
  }

  /** The 6-bit value of an alphabet symbol, -1 for every other byte. */
  function Value(c: byte): (v: int)
    ensures -1 <= v < 64
  {
    if 65 <= c <= 90 then c - 65
    else if 97 <= c <= 122 then c - 97 + 26
    else if 48 <= c <= 57 then c - 48 + 52
    else if c == 43 then 62
    else if c == 47 then 63
    else -1
  }

  /** Four symbols for three bytes. */
  function Quad(x: byte, y: byte, z: byte): seq<byte> {
    [Symbol(x / 4), Symbol(x % 4 * 16 + y / 16), Symbol(y % 16 * 4 + z / 64), Symbol(z % 64)]
  }

  /** `b64encode`: every three bytes become four symbols; one or two final
      bytes become four symbols ending in `==` or `=`. */
  function Encode(b: Bytes): (r: Bytes)
    ensures |r| == 4 * ((|b| + 2) / 3)
    decreases |b|
  {
    if |b| == 0 then []
    else if |b| == 1 then
      [Symbol(b[0] / 4), Symbol(b[0] % 4 * 16), PAD, PAD]
    else if |b| == 2 then
      [Symbol(b[0] / 4), Symbol(b[0] % 4 * 16 + b[1] / 16), Symbol(b[1] % 16 * 4), PAD]
    else
      Quad(b[0], b[1], b[2]) + Encode(b[3..])
  }

  /** The registers of `a2b_base64`: the position inside the current quad,
      the bits the previous symbol left over, the pads seen since the last
      symbol, and the bytes produced so far. */
  datatype Decoder = Decoder(quad: int, left: int, pads: nat, out: Bytes)

  /** The left-over bits never exceed what the next output byte can take. */
  predicate Registers(d: Decoder) {
    && 0 <= d.quad < 4
    && 0 <= d.left
    && (d.quad == 1 ==> d.left < 64)
    && (d.quad == 2 ==> d.left < 16)
    && (d.quad == 3 ==> d.left < 4)
  }

  const Start := Decoder(0, 0, 0, [])

  /** Take one alphabet symbol of value `v`. */
  function Feed(d: Decoder, v: int): (e: Decoder)
    requires Registers(d) && 0 <= v < 64
    ensures Registers(e)
    ensures e.pads == 0 && e.quad == (d.quad + 1) % 4
    ensures |e.out| == |d.out| + (if d.quad == 0 then 0 else 1)
  {
    if d.quad == 0 then Decoder(1, v, 0, d.out)
    else if d.quad == 1 then Decoder(2, v % 16, 0, d.out + [d.left * 4 + v / 16])
    else if d.quad == 2 then Decoder(3, v % 4, 0, d.out + [d.left * 16 + v / 4])
    else Decoder(0, 0, 0, d.out + [d.left * 64 + v])
  }

  /** `a2b_base64` from position `i` on; `None` is `binascii.Error`. */
  function Scan(s: Bytes, i: nat, d: Decoder): Option<Bytes>
    requires i <= |s| && Registers(d)
    decreases |s| - i
  {
    if i == |s| then (if d.quad == 0 then Some(d.out) else None)
    else if s[i] == PAD then
      if d.quad >= 2 && d.quad + d.pads + 1 >= 4 then Some(d.out)
      else if d.quad >= 2 then Scan(s, i + 1, d.(pads := d.pads + 1))
      else Scan(s, i + 1, d)
    else if Value(s[i]) < 0 then Scan(s, i + 1, d)
    else Scan(s, i + 1, Feed(d, Value(s[i])))
  }

  /** `b64decode(s)`. */
  function Decode(s: Bytes): Option<Bytes> {
    Scan(s, 0, Start)
  }

  lemma ValueOfSymbol(v: int)
    requires 0 <= v < 64
    ensures Value(Symbol(v)) == v
  {}

  /** The bit arithmetic of one quad: decoding its symbols gives the bytes back. */
  lemma QuadBits(x: byte, y: byte, z: byte)
    ensures (x / 4) * 4 + (x % 4 * 16 + y / 16) / 16 == x
    ensures (x % 4 * 16 + y / 16) % 16 == y / 16
    ensures (y / 16) * 16 + (y % 16 * 4 + z / 64) / 4 == y
    ensures (y % 16 * 4 + z / 64) % 4 == z / 64
    ensures (z / 64) * 64 + z % 64 == z
  {}

  /** Decoding the symbols of a quad from a quad boundary appends its three
      bytes and ends on the next quad boundary. */
  lemma {:induction false} ScanQuad(s: Bytes, i: nat, x: byte, y: byte, z: byte, out: Bytes)
    requires i + 4 <= |s| && s[i..i + 4] == Quad(x, y, z)
    ensures Scan(s, i, Decoder(0, 0, 0, out)) == Scan(s, i + 4, Decoder(0, 0, 0, out + [x, y, z]))
  {
    var q := Quad(x, y, z);
    assert s[i] == q[0] && s[i + 1] == q[1] && s[i + 2] == q[2] && s[i + 3] == q[3];
    ValueOfSymbol(x / 4);
    ValueOfSymbol(x % 4 * 16 + y / 16);
    ValueOfSymbol(y % 16 * 4 + z / 64);
    ValueOfSymbol(z % 64);
    QuadBits(x, y, z);
    var d0 := Decoder(0, 0, 0, out);
    var d1 := Feed(d0, x / 4);
    var d2 := Feed(d1, x % 4 * 16 + y / 16);
    var d3 := Feed(d2, y % 16 * 4 + z / 64);
    var d4 := Feed(d3, z % 64);
    assert d4 == Decoder(0, 0, 0, out + [x, y, z]);
    assert Scan(s, i, d0) == Scan(s, i + 1, d1);
    assert Scan(s, i + 1, d1) == Scan(s, i + 2, d2);
    assert Scan(s, i + 2, d2) == Scan(s, i + 3, d3);
    assert Scan(s, i + 3, d3) == Scan(s, i + 4, d4);
  }

  /** A one-byte tail `xy==` appends that byte and stops at the second pad. */
  lemma ScanPadTwo(s: Bytes, i: nat, x: byte, out: Bytes)
    requires i + 4 <= |s|
    requires s[i] == Symbol(x / 4) && s[i + 1] == Symbol(x % 4 * 16) && s[i + 2] == PAD && s[i + 3] == PAD
    ensures Scan(s, i, Decoder(0, 0, 0, out)) == Some(out + [x])
  {
    ValueOfSymbol(x / 4);
    ValueOfSymbol(x % 4 * 16);
    var d1 := Feed(Decoder(0, 0, 0, out), x / 4);
    var d2 := Feed(d1, x % 4 * 16);
    assert d2 == Decoder(2, 0, 0, out + [x]);
    assert Scan(s, i + 2, d2) == Scan(s, i + 3, d2.(pads := 1));
  }

  /** A two-byte tail `xyz=` appends those bytes and stops at the pad. */
  lemma ScanPadOne(s: Bytes, i: nat, x: byte, y: byte, out: Bytes)
    requires i + 4 <= |s|
    requires s[i] == Symbol(x / 4) && s[i + 1] == Symbol(x % 4 * 16 + y / 16)
    requires s[i + 2] == Symbol(y % 16 * 4) && s[i + 3] == PAD
    ensures Scan(s, i, Decoder(0, 0, 0, out)) == Some(out + [x, y])
  {
    ValueOfSymbol(x / 4);
    ValueOfSymbol(x % 4 * 16 + y / 16);
    ValueOfSymbol(y % 16 * 4);
    QuadBits(x, y, 0);
    var d1 := Feed(Decoder(0, 0, 0, out), x / 4);
    var d2 := Feed(d1, x % 4 * 16 + y / 16);
    var d3 := Feed(d2, y % 16 * 4);
    assert d1 == Decoder(1, x / 4, 0, out);
    assert d2 == Decoder(2, (x % 4 * 16 + y / 16) % 16, 0, out + [x]);
    assert d3 == Decoder(3, 0, 0, out + [x, y]);
    assert Scan(s, i + 3, d3) == Some(out + [x, y]);
    assert Scan(s, i + 2, d2) == Scan(s, i + 3, d3);
    assert Scan(s, i + 1, d1) == Scan(s, i + 2, d2);
    assert Scan(s, i, Decoder(0, 0, 0, out)) == Scan(s, i + 1, d1);
  }

  /** Decoding an encoding that follows any prefix, from a quad boundary,
      appends exactly the encoded bytes. */
  lemma {:induction false} ScanEncoding(p: Bytes, b: Bytes, out: Bytes)
    ensures Scan(p + Encode(b), |p|, Decoder(0, 0, 0, out)) == Some(out + b)
    decreases |b|
  {
    var s := p + Encode(b);
    var i := |p|;
    if |b| == 0 {
      assert s == p && out + b == out;
    } else if |b| == 1 {
      assert b == [b[0]];
      ScanPadTwo(s, i, b[0], out);
    } else if |b| == 2 {
      assert b == [b[0], b[1]];
      ScanPadOne(s, i, b[0], b[1], out);
    } else {
      var q := Quad(b[0], b[1], b[2]);
      assert s == (p + q) + Encode(b[3..]);
      assert s[i..i + 4] == q;
      ScanQuad(s, i, b[0], b[1], b[2], out);
      ScanEncoding(p + q, b[3..], out + [b[0], b[1], b[2]]);
      assert out + [b[0], b[1], b[2]] + b[3..] == out + b;
    }
  }

  /** Round trip: `b64decode(b64encode(b)) == b`. */
  lemma DecodeEncode(b: Bytes)
    ensures Decode(Encode(b)) == Some(b)
  {
    ScanEncoding([], b, []);
    assert [] + Encode(b) == Encode(b);
    assert [] + b == b;
  }

  /** Input ending two symbols and a pad after a quad boundary is rejected. */
  lemma ScanEndsAfterPad(s: Bytes, i: nat, v0: int, v1: int, out: Bytes)
    requires 0 <= v0 < 64 && 0 <= v1 < 64
    requires |s| == i + 3 && s[i] == Symbol(v0) && s[i + 1] == Symbol(v1) && s[i + 2] == PAD
    ensures Scan(s, i, Decoder(0, 0, 0, out)) == None
  {
    ValueOfSymbol(v0);
    ValueOfSymbol(v1);
    var d1 := Feed(Decoder(0, 0, 0, out), v0);
    var d2 := Feed(d1, v1);
    assert Scan(s, i + 2, d2) == Scan(s, i + 3, d2.(pads := 1));
  }

  /** Input ending three symbols after a quad boundary is rejected. */
  lemma ScanEndsAfterThree(s: Bytes, i: nat, v0: int, v1: int, v2: int, out: Bytes)
    requires 0 <= v0 < 64 && 0 <= v1 < 64 && 0 <= v2 < 64
    requires |s| == i + 3 && s[i] == Symbol(v0) && s[i + 1] == Symbol(v1) && s[i + 2] == Symbol(v2)
    ensures Scan(s, i, Decoder(0, 0, 0, out)) == None
  {
    ValueOfSymbol(v0);
    ValueOfSymbol(v1);
    ValueOfSymbol(v2);
    var d1 := Feed(Decoder(0, 0, 0, out), v0);
    var d2 := Feed(d1, v1);
    var d3 := Feed(d2, v2);
    assert Scan(s, i + 1, d1) == Scan(s, i + 2, d2);
    assert Scan(s, i + 2, d2) == Scan(s, i + 3, d3);
  }

  /** Dropping the last symbol of any non-empty encoding leaves input that
      stops inside a quad, which the decoder rejects. */
  lemma {:induction false} ScanTruncated(p: Bytes, b: Bytes, out: Bytes)
    requires |b| > 0
    ensures Scan(p + Encode(b)[..|Encode(b)| - 1], |p|, Decoder(0, 0, 0, out)) == None
    decreases |b|
  {
    var e := Encode(b);
    var s := p + e[..|e| - 1];
    var i := |p|;
    if |b| == 1 {
      ScanEndsAfterPad(s, i, b[0] / 4, b[0] % 4 * 16, out);
    } else if |b| == 2 {
      ScanEndsAfterThree(s, i, b[0] / 4, b[0] % 4 * 16 + b[1] / 16, b[1] % 16 * 4, out);
    } else if |b| == 3 {
      assert e == Quad(b[0], b[1], b[2]) + [];
      ScanEndsAfterThree(s, i, b[0] / 4, b[0] % 4 * 16 + b[1] / 16, b[1] % 16 * 4 + b[2] / 64, out);
    } else {
      var q := Quad(b[0], b[1], b[2]);
      var e' := Encode(b[3..]);
      assert e == q + e';
      assert s == (p + q) + e'[..|e'| - 1];
      assert s[i..i + 4] == q;
      ScanQuad(s, i, b[0], b[1], b[2], out);
      ScanTruncated(p + q, b[3..], out + [b[0], b[1], b[2]]);
    }
  }

  /** A token cut short by its last symbol is rejected. */
  lemma TruncatedIsRejected(b: Bytes)
    requires |b| > 0
    ensures Decode(Encode(b)[..|Encode(b)| - 1]) == None
  {
    ScanTruncated([], b, []);
    assert [] + Encode(b)[..|Encode(b)| - 1] == Encode(b)[..|Encode(b)| - 1];
  }

  /** ASCII text without `?` and DEL encodes without `/`: the symbol for 63
      needs six set low bits in a byte's last six bits or a non-ASCII byte. */
  lemma {:induction false} EncodingHasNoSlash(b: Bytes)
    requires forall k :: 0 <= k < |b| ==> b[k] < 128 && b[k] != 63 && b[k] != 127
    ensures SLASH !in Encode(b)
    decreases |b|
  {
    if |b| >= 3 {
      EncodingHasNoSlash(b[3..]);
      var x, y, z := b[0], b[1], b[2];
      assert z % 64 != 63;
      assert Encode(b) == Quad(x, y, z) + Encode(b[3..]);
    }
  }
}

=== FILE: common.dfy ===
/** Shared vocabulary of the model: optional values, octets, the HTTP status
    codes the controllers answer with, the two generations of the client
    add-on, guard verdicts, and the instance configuration they read. */
module Common {

  datatype Option<+T> = None | Some(value: T) {
    function GetOr(default: T): T {
      match this
      case Some(v) => v
      case None => default
    }
  }

  /** One octet. Names, tokens and URLs of the login protocol are modelled by
      their UTF-8 encodings, so all text there is `Bytes`. */
  type byte = b: int | 0 <= b < 256
  type Bytes = seq<byte>

  const STATUS_OK: int := 200
  const BAD_REQUEST: int := 400
  const FORBIDDEN: int := 403
  const NOT_FOUND: int := 404
  const CONFLICT: int := 409
  /** The code of `DatabaseNotExists`. */
  const DATABASE_NOT_EXISTS: int := 440
  /** What an exception no controller catches turns into. */
  const SERVER_ERROR: int := 500

  /** The add-on generation: `yodoo_client`, or its predecessor
      `odoo_infrastructure_client`. */
  datatype Variant = Yodoo | Infrastructure

  /** The verdict of one guard of a controller. */
  datatype Gate = Pass | Reject(status: int)

  /** Guards run in order and the first rejection is the answer. */
  function First(gates: seq<Gate>): (r: Gate)
    ensures r.Pass? <==> forall i :: 0 <= i < |gates| ==> gates[i].Pass?
    ensures forall i :: 0 <= i < |gates| && gates[i].Reject? && (forall j :: 0 <= j < i ==> gates[j].Pass?) ==> r == gates[i]
  {
    if |gates| == 0 then Pass
    else if gates[0].Reject? then gates[0]
    else
      var r := First(gates[1..]);
      assert forall i :: 1 <= i < |gates| ==> gates[i] == gates[1..][i - 1];
      r
  }

  /** The full stop, as text and as its octet: the separator of version
      components and of a dump's file name extension. */
  const DOT_CHAR: char := '.'
  const DOT: byte := 46

  /** How a database dump ends: a file, Odoo's `AccessDenied` (database
      management disabled), or any other exception. */
  datatype DumpOutcome = Dumped | DumpDenied | DumpFailed

  function Min(a: nat, b: nat): nat {
    if a <= b then a else b
  }

  /** The instance configuration (the server's config file).
      `secret` is the shared instance token (`yodoo_token`, or
      `odoo_infrastructure_token` in the predecessor); the two flags are
      `admin_access_url` and `admin_access_credentials`, `None` when the file
      does not set them. */
  datatype Config = Config(
    secret: Option<Bytes>,
    adminAccessUrl: Option<bool>,
    adminAccessCredentials: Option<bool>)
}

=== FILE: credential_store.dfy ===
/** The credential table `odoo_infrastructure_client_auth` of one database
    and the model class over it: rows in insertion order plus the id
    sequence, the inserts of the mint controllers, the lookup and the delete
    of redemption, the ORM `create` with its field default, and the expiry
    sweep `scheduler_cleanup_expired_entries`. Time is integer seconds. */
module CredentialStore {
  import opened Common

  /** One row. `tokenTemp` is NULL for rows of the oldest controller, which
      had no such column. */
  datatype Credential = Credential(
    id: nat,
    tokenUser: Bytes,
    tokenPassword: Bytes,
    expire: int,
    tokenTemp: Option<Bytes>)

  datatype Store = Store(rows: seq<Credential>, nextId: nat)

  const EMPTY := Store([], 1)

  /** No two rows share an id. */
  predicate UniqueIds(rows: seq<Credential>)
    decreases |rows|
  {
    |rows| == 0 || ((forall c :: c in rows[1..] ==> c.id != rows[0].id) && UniqueIds(rows[1..]))
  }

  /** Ids are unique and all below the next id the sequence hands out. */
  predicate Valid(s: Store) {
    UniqueIds(s.rows) && forall c :: c in s.rows ==> c.id < s.nextId
  }

  /** A row login and redemption still accept: `expire > now`. */
  predicate Live(c: Credential, now: int) {
    c.expire > now
  }

  /** What the redemption query selects: this `token_temp`, still live. */
  predicate Redeemable(c: Credential, temp: Bytes, now: int) {
    c.tokenTemp == Some(temp) && Live(c, now)
  }

  lemma {:induction false} UniqueAppend(rows: seq<Credential>, c: Credential)
    requires UniqueIds(rows)
    requires forall d :: d in rows ==> d.id != c.id
    ensures UniqueIds(rows + [c])
    decreases |rows|
  {
    if |rows| > 0 {
      UniqueAppend(rows[1..], c);
      assert (rows + [c])[1..] == rows[1..] + [c];
    }
  }

  /** INSERT: one row with the given fields and the next id is appended;
      every earlier row stays as it was. */
  function Insert(s: Store, user: Bytes, password: Bytes, expire: int, temp: Option<Bytes>): (r: Store)
    requires Valid(s)
    ensures Valid(r)
    ensures |r.rows| == |s.rows| + 1 && r.rows[..|s.rows|] == s.rows
    ensures var c := r.rows[|s.rows|];
      c.tokenUser == user && c.tokenPassword == password && c.expire == expire && c.tokenTemp == temp
      && forall d :: d in s.rows ==> d.id != c.id
  {
    var c := Credential(s.nextId, user, password, expire, temp);
    UniqueAppend(s.rows, c);
    assert (s.rows + [c])[..|s.rows|] == s.rows;
    Store(s.rows + [c], s.nextId + 1)
  }

  /** The rows that satisfy `keep`, in their order. */
  function Keep(rows: seq<Credential>, keep: Credential -> bool): (r: seq<Credential>)
    ensures forall c :: c in r <==> c in rows && keep(c)
    ensures UniqueIds(rows) ==> UniqueIds(r)
    decreases |rows|
  {
    if |rows| == 0 then []
    else
      var rest := Keep(rows[1..], keep);
      assert forall c :: c in rows <==> c == rows[0] || c in rows[1..];
      if keep(rows[0]) then
        assert ([rows[0]] + rest)[1..] == rest;
        [rows[0]] + rest
      else rest
  }

  /** `SELECT id, token_user, token_password ... WHERE token_temp = %s AND
      expire > now` followed by `fetchone()`: a matching live row when there
      is one. The query has no ORDER BY; the model answers with the earliest
      inserted match. */
  function Lookup(rows: seq<Credential>, temp: Bytes, now: int): (r: Option<Credential>)
    ensures r.Some? ==> r.value in rows && Redeemable(r.value, temp, now)
    ensures r.None? <==> forall c :: c in rows ==> !Redeemable(c, temp, now)
    decreases |rows|
  {
    if |rows| == 0 then None
    else if Redeemable(rows[0], temp, now) then Some(rows[0])
    else
      assert forall c :: c in rows <==> c == rows[0] || c in rows[1..];
      Lookup(rows[1..], temp, now)
  }

  function OtherId(id: nat): Credential -> bool {
    (c: Credential) => c.id != id
  }

  /** The rows the sweep keeps: not yet past `expire`. */
  function Unexpired(now: int): Credential -> bool {
    (c: Credential) => c.expire >= now
  }

  /** `DELETE ... WHERE id = %s`: exactly the rows with that id go. */
  function DeleteId(s: Store, id: nat): (r: Store)
    requires Valid(s)
    ensures Valid(r) && r.nextId == s.nextId
    ensures forall c :: c in r.rows <==> c in s.rows && c.id != id
  {
    Store(Keep(s.rows, OtherId(id)), s.nextId)
  }

  /** `scheduler_cleanup_expired_entries`: unlink the rows with
      `expire < now` and answer True. */
  function Sweep(s: Store, now: int): (r: (Store, bool))
    requires Valid(s)
    ensures r.1
    ensures Valid(r.0) && r.0.nextId == s.nextId
    ensures forall c :: c in r.0.rows <==> c in s.rows && c.expire >= now
  {
    (Store(Keep(s.rows, Unexpired(now)), s.nextId), true)
  }

  /** A second sweep at the same instant finds nothing left to remove. */
  lemma SweepIdempotent(s: Store, now: int)
    requires Valid(s)
    ensures Sweep(Sweep(s, now).0, now).0.rows == Sweep(s, now).0.rows
  {
    KeepAll(Sweep(s, now).0.rows, Unexpired(now));
  }

  /** Filtering by a predicate every row already satisfies changes nothing. */
  lemma {:induction false} KeepAll(rows: seq<Credential>, keep: Credential -> bool)
    requires forall c :: c in rows ==> keep(c)
    ensures Keep(rows, keep) == rows
    decreases |rows|
  {
    if |rows| > 0 {
      KeepAll(rows[1..], keep);
      assert [rows[0]] + rows[1..] == rows;
    }
  }

  /** Removing rows that are not redeemable never changes what a
      redemption query returns. */
  lemma {:induction false} LookupIgnoresRemovedDeadRows(rows: seq<Credential>, keep: Credential -> bool, temp: Bytes, now: int)
    requires forall c :: c in rows && !keep(c) ==> !Live(c, now)
    ensures Lookup(Keep(rows, keep), temp, now) == Lookup(rows, temp, now)
    decreases |rows|
  {
    if |rows| > 0 {
      assert forall c :: c in rows[1..] ==> c in rows;
      LookupIgnoresRemovedDeadRows(rows[1..], keep, temp, now);
      if keep(rows[0]) {
        assert ([rows[0]] + Keep(rows[1..], keep))[1..] == Keep(rows[1..], keep);
      }
    }
  }

  /** The sweep is invisible to redemption: it only removes rows no
      redemption could select. */
  lemma SweepPreservesLookup(s: Store, sweptAt: int, now: int, temp: Bytes)
    requires Valid(s)
    requires sweptAt <= now
    ensures Lookup(Sweep(s, sweptAt).0.rows, temp, now) == Lookup(s.rows, temp, now)
  {
    LookupIgnoresRemovedDeadRows(s.rows, Unexpired(sweptAt), temp, now);
  }

  /** Filtering out a last row that fails the filter, after rows that all
      pass it, gives those rows back. */
  lemma {:induction false} KeepDropsLast(rows: seq<Credential>, c: Credential, keep: Credential -> bool)
    requires forall d :: d in rows ==> keep(d)
    requires !keep(c)
    ensures Keep(rows + [c], keep) == rows
    decreases |rows|
  {
    if |rows| == 0 {
      assert [] + [c] == [c];
    } else {
      KeepDropsLast(rows[1..], c, keep);
      assert (rows + [c])[1..] == rows[1..] + [c];
      assert [rows[0]] + rows[1..] == rows;
    }
  }

  /** At most one row carries this `token_temp`. */
  predicate OneCarrier(rows: seq<Credential>, temp: Bytes) {
    forall c, d :: c in rows && d in rows && c.tokenTemp == Some(temp) && d.tokenTemp == Some(temp) ==> c == d
  }

  /** ORM `write({'expire': e})` on the row with this id. */
  function SetExpire(s: Store, id: nat, e: int): (r: Store)
    requires Valid(s)
    ensures Valid(r) && r.nextId == s.nextId && |r.rows| == |s.rows|
    ensures forall k :: 0 <= k < |r.rows| ==>
      r.rows[k] == (if s.rows[k].id == id then s.rows[k].(expire := e) else s.rows[k])
  {
    var rows := seq(|s.rows|, k requires 0 <= k < |s.rows| => if s.rows[k].id == id then s.rows[k].(expire := e) else s.rows[k]);
    SameIdsUnique(s.rows, rows);
    assert forall c :: c in rows ==> c.id < s.nextId by {
      forall c | c in rows ensures c.id < s.nextId {
        var k :| 0 <= k < |rows| && rows[k] == c;
        assert s.rows[k] in s.rows;
      }
    }
    Store(rows, s.nextId)
  }

  lemma {:induction false} SameIdsUnique(a: seq<Credential>, b: seq<Credential>)
    requires UniqueIds(a) && |a| == |b|
    requires forall k :: 0 <= k < |a| ==> a[k].id == b[k].id
    ensures UniqueIds(b)
    decreases |a|
  {
    if |a| > 0 {
      SameIdsUnique(a[1..], b[1..]);
      forall c | c in b[1..] ensures c.id != b[0].id {
        var k :| 0 <= k < |b[1..]| && b[1..][k] == c;
        assert a[1..][k] in a[1..];
      }
    }
  }

  /** The scenario of the predecessor's test suite: a row minted with a
      300-second ttl survives a sweep; moved back one hour, the next sweep
      removes it. */
  lemma SweepScenario(s: Store, now: int, c: Credential)
    requires Valid(s)
    requires c in s.rows && c.expire == now + 300
    ensures c in Sweep(s, now).0.rows
    ensures forall d :: d in Sweep(SetExpire(s, c.id, c.expire - 3600), now).0.rows ==> d.id != c.id
  {
    var s' := SetExpire(s, c.id, c.expire - 3600);
    forall d | d in Sweep(s', now).0.rows ensures d.id != c.id {
      var k :| 0 <= k < |s'.rows| && s'.rows[k] == d;
    }
  }

  /** ORM `create` of a row: `expire` is required, and when the values leave
      it out the field default fills it in. */
  function Create(s: Store, user: Bytes, password: Bytes, expire: Option<int>, temp: Option<Bytes>, default: int): (r: Store)
    requires Valid(s)
    ensures Valid(r) && |r.rows| == |s.rows| + 1 && r.rows[..|s.rows|] == s.rows
    ensures var c := r.rows[|s.rows|];
      c.tokenUser == user && c.tokenPassword == password && c.tokenTemp == temp
      && c.expire == (if expire.Some? then expire.value else default)
      && forall d :: d in s.rows ==> d.id != c.id
  {
    Insert(s, user, password, expire.GetOr(default), temp)
  }

  /** The `expire` default as written: an expression evaluated once, when the
      class body runs at server start (`loadedAt`), so it does not depend on
      when a row is created. */
  function DefaultExpireAsWritten(loadedAt: int, createdAt: int): int {
    loadedAt + 3600
  }

  /** The default as evidently intended: an hour after the row is created. */
  function DefaultExpire(loadedAt: int, createdAt: int): (e: int)
    ensures e > createdAt
  {
    createdAt + 3600
  }

  /** Once the server has run an hour, a row created without `expire` under
      the as-written default is born dead: no login or redemption accepts it
      and the next sweep deletes it. */
  lemma StaleDefaultIsBornExpired(s: Store, loadedAt: int, createdAt: int, user: Bytes, password: Bytes, temp: Option<Bytes>)
    requires Valid(s)
    requires createdAt >= loadedAt + 3600
    ensures var r := Create(s, user, password, None, temp, DefaultExpireAsWritten(loadedAt, createdAt));
      !Live(r.rows[|s.rows|], createdAt)
  {}

  /** Under the intended default a row created without `expire` is live for
      the hour after its creation. */
  lemma FreshDefaultIsLive(s: Store, loadedAt: int, createdAt: int, user: Bytes, password: Bytes, temp: Option<Bytes>, now: int)
    requires Valid(s)
    requires createdAt <= now < createdAt + 3600
    ensures var r := Create(s, user, password, None, temp, DefaultExpire(loadedAt, createdAt));
      Live(r.rows[|s.rows|], now)
  {}
}

=== FILE: db_controllers.dfy ===
/** The database lifecycle endpoints under `/saas/client/db/`: exists,
    create, duplicate, rename, drop, restore, `configure/base_url`, and the
    guards of `stat` and `users/info`, over the catalogue of databases. The
    verdict of `require_saas_token` is the input `auth`; what the database
    service decides (whether a new database came up initialised, whether a
    drop is allowed, how a restore ends) and the host a base URL names are
    inputs too. The predecessor's controllers return the responses the
    newer ones raise; the statuses agree. */
module DbControllers {
  import opened Common
  import opened Instance
  import opened Guards

  datatype Reply = Reply(status: int, body: string)

  const OK_BODY := "OK"

  /** What `require_saas_token` can answer: pass, 404 when the instance
      has no token, 403 when the supplied one does not match. */
  predicate TokenVerdict(auth: Gate) {
    auth == Pass || auth == Reject(NOT_FOUND) || auth == Reject(FORBIDDEN)
  }

  lemma CheckTokenIsVerdict(secret: Option<Bytes>, digest: Bytes -> Bytes, supplied: Option<Bytes>)
    ensures TokenVerdict(CheckToken(secret, digest, supplied))
  {}

  /** A refusal has no body worth modelling. */
  function Refuse(status: int): Reply {
    Reply(status, "")
  }

  /** `require_saas_token` then `require_db_param`. */
  function Admitted(auth: Gate, db: Option<Bytes>, cat: Catalogue): (g: Gate)
    ensures g.Pass? <==> auth.Pass? && db.Some? && |db.value| > 0 && db.value in cat
    ensures auth.Reject? ==> g == auth
    ensures auth.Pass? ==> g == RequireDb(db, cat.Keys)
  {
    if auth.Reject? then auth else RequireDb(db, cat.Keys)
  }

  /** `client_db_exists`: 200 exactly when both guards pass. */
  function Exists(auth: Gate, db: Option<Bytes>, cat: Catalogue): (r: Reply)
    requires TokenVerdict(auth)
    ensures r.status == STATUS_OK <==> auth.Pass? && db.Some? && |db.value| > 0 && db.value in cat
    ensures r.status != STATUS_OK ==> r.status == Admitted(auth, db, cat).status
  {
    var g := Admitted(auth, db, cat);
    if g.Reject? then Refuse(g.status) else Reply(STATUS_OK, "")
  }

  /** The three `client_db_create` controllers: the newer `db.py`, the
      predecessor's `db.py`, and its `odoo_infrastructure_db_create.py`,
      which answers `successfully` instead of `OK`. */
  datatype CreateRoute = YodooDb | InfraDb | InfraDbCreate

  function CreatedBody(route: CreateRoute): string {
    if route == InfraDbCreate then "successfully" else OK_BODY
  }

  /** How the creation steps of `client_db_create` end once the name is
      free. `_create_empty_database` either raises something other than
      `DatabaseExists`, and then no database exists, or it creates one; then
      `_initialize_db` runs and `is_initialized` is read. `database` is what
      the name holds afterwards (with whatever parameters installing `base`
      stored), and `initialized` is false when `is_initialized` says so or
      `_initialize_db` raised: either way the database stays. */
  datatype CreateOutcome = CreateRaised | Created(database: Database, initialized: bool)

  /** `client_db_create(dbname)`: the token, then a missing name (400), then
      an existing one (409), all before anything is created. Otherwise the
      creation outcome decides. */
  function Create(route: CreateRoute, auth: Gate, dbname: Option<Bytes>, cat: Catalogue, outcome: CreateOutcome): (r: (Reply, Catalogue))
    requires TokenVerdict(auth)
    ensures auth.Reject? ==> r == (Refuse(auth.status), cat)
    ensures auth.Pass? && (dbname.None? || |dbname.value| == 0) ==> r == (Refuse(BAD_REQUEST), cat)
    ensures auth.Pass? && dbname.Some? && |dbname.value| > 0 && dbname.value in cat ==> r == (Refuse(CONFLICT), cat)
    ensures auth.Pass? && dbname.Some? && |dbname.value| > 0 && dbname.value !in cat && outcome.CreateRaised?
      ==> r == (Refuse(SERVER_ERROR), cat)
    ensures auth.Pass? && dbname.Some? && |dbname.value| > 0 && dbname.value !in cat && outcome.Created?
      ==> (r.1.Keys == cat.Keys + {dbname.value} && r.1[dbname.value] == outcome.database
           && (forall n :: n in cat ==> r.1[n] == cat[n]))
    ensures r.0.status == STATUS_OK <==>
      auth.Pass? && dbname.Some? && |dbname.value| > 0 && dbname.value !in cat && outcome.Created? && outcome.initialized
    ensures r.0.status == STATUS_OK ==> r.0.body == CreatedBody(route)
    ensures r.1 != cat ==> dbname.Some? && dbname.value !in cat && outcome.Created?
  {
    if auth.Reject? then (Refuse(auth.status), cat)
    else if dbname.None? || |dbname.value| == 0 then (Refuse(BAD_REQUEST), cat)
    else if dbname.value in cat then (Refuse(CONFLICT), cat)
    else
      match outcome
      case CreateRaised => (Refuse(SERVER_ERROR), cat)
      case Created(d, initialized) =>
        var created := cat[dbname.value := d];
        if !initialized then (Refuse(SERVER_ERROR), created)
        else (Reply(STATUS_OK, CreatedBody(route)), created)
  }

  /** The checks `client_db_duplicate` and `client_db_rename` share after
      the guards: a missing new name is a bad request, an existing one a
      conflict. */
  function TargetFree(newName: Option<Bytes>, cat: Catalogue): (g: Gate)
    ensures g.Pass? <==> newName.Some? && |newName.value| > 0 && newName.value !in cat
    ensures g.Reject? ==> g.status == (if newName.None? || |newName.value| == 0 then BAD_REQUEST else CONFLICT)
  {
    if newName.None? || |newName.value| == 0 then Reject(BAD_REQUEST)
    else if newName.value in cat then Reject(CONFLICT)
    else Pass
  }

  /** How a database service call the controller does not guard ends: it
      returns, or it raises (`AccessDenied` when database management is
      disabled, or the failure of the SQL statement). Nothing catches the
      exception, so it is a server error, and the statement that failed
      changed nothing. */
  datatype ServiceCall = Done | Raised

  /** `client_db_duplicate(db, new_dbname)`: a copy of `db` under the new
      name. Odoo re-initialises the copy's default system parameters
      (`ir.config_parameter.init(force=True)`: the database uuid, secret and
      creation date, and `web.base.url`); `reset` holds the values they get,
      and every other parameter is copied. */
  function Duplicate(auth: Gate, db: Option<Bytes>, newName: Option<Bytes>, cat: Catalogue, call: ServiceCall, reset: map<string, string>): (r: (Reply, Catalogue))
    requires TokenVerdict(auth)
    ensures Admitted(auth, db, cat).Reject? ==> r == (Refuse(Admitted(auth, db, cat).status), cat)
    ensures Admitted(auth, db, cat).Pass? && TargetFree(newName, cat).Reject? ==> r == (Refuse(TargetFree(newName, cat).status), cat)
    ensures Admitted(auth, db, cat).Pass? && TargetFree(newName, cat).Pass? && call.Raised? ==> r == (Refuse(SERVER_ERROR), cat)
    ensures r.0.status == STATUS_OK <==> Admitted(auth, db, cat).Pass? && TargetFree(newName, cat).Pass? && call.Done?
    ensures r.0.status == STATUS_OK ==>
      r.1.Keys == cat.Keys + {newName.value} && (forall n :: n in cat ==> r.1[n] == cat[n])
      && var copy := r.1[newName.value]; var source := cat[db.value];
      copy.store == source.store
      && copy.params.Keys == source.params.Keys + reset.Keys
      && (forall k :: k in reset ==> copy.params[k] == reset[k])
      && (forall k :: k in source.params && k !in reset ==> copy.params[k] == source.params[k])
    ensures r.0.status != STATUS_OK ==> r.1 == cat
  {
    var g := Admitted(auth, db, cat);
    var t := TargetFree(newName, cat);
    if g.Reject? then (Refuse(g.status), cat)
    else if t.Reject? then (Refuse(t.status), cat)
    else if call.Raised? then (Refuse(SERVER_ERROR), cat)
    else
      var source := cat[db.value];
      (Reply(STATUS_OK, OK_BODY), cat[newName.value := source.(params := source.params + reset)])
  }

  /** A copy does not inherit the source's `web.base.url` when Odoo resets
      it: the source keeps its own URL, the copy gets the reset value. */
  lemma DuplicateResetsBaseUrl(db: Bytes, newName: Bytes, cat: Catalogue, reset: map<string, string>)
    requires |db| > 0 && db in cat && |newName| > 0 && newName !in cat && BASE_URL_KEY in reset
    ensures var after := Duplicate(Pass, Some(db), Some(newName), cat, Done, reset).1;
      newName in after && BASE_URL_KEY in after[newName].params
      && after[newName].params[BASE_URL_KEY] == reset[BASE_URL_KEY] && after[db] == cat[db]
  {}

  /** `client_db_rename(db, new_dbname)`: the database moves to the new
      name. */
  function Rename(auth: Gate, db: Option<Bytes>, newName: Option<Bytes>, cat: Catalogue, call: ServiceCall): (r: (Reply, Catalogue))
    requires TokenVerdict(auth)
    ensures Admitted(auth, db, cat).Reject? ==> r == (Refuse(Admitted(auth, db, cat).status), cat)
    ensures Admitted(auth, db, cat).Pass? && TargetFree(newName, cat).Reject? ==> r == (Refuse(TargetFree(newName, cat).status), cat)
    ensures Admitted(auth, db, cat).Pass? && TargetFree(newName, cat).Pass? && call.Raised? ==> r == (Refuse(SERVER_ERROR), cat)
    ensures r.0.status == STATUS_OK <==> Admitted(auth, db, cat).Pass? && TargetFree(newName, cat).Pass? && call.Done?
    ensures r.0.status != STATUS_OK ==> r.1 == cat
  {
    var g := Admitted(auth, db, cat);
    var t := TargetFree(newName, cat);
    if g.Reject? then (Refuse(g.status), cat)
    else if t.Reject? then (Refuse(t.status), cat)
    else if call.Raised? then (Refuse(SERVER_ERROR), cat)
    else (Reply(STATUS_OK, OK_BODY), (cat - {db.value})[newName.value := cat[db.value]])
  }

  /** After a rename the old name is gone, the new name holds the database
      the old one held, and every other database is as it was. */
  lemma RenameMoves(auth: Gate, db: Option<Bytes>, newName: Option<Bytes>, cat: Catalogue, call: ServiceCall)
    requires TokenVerdict(auth)
    requires Rename(auth, db, newName, cat, call).0.status == STATUS_OK
    ensures var after := Rename(auth, db, newName, cat, call).1;
      db.value !in after && newName.value in after && after[newName.value] == cat[db.value]
      && after.Keys == cat.Keys - {db.value} + {newName.value}
      && forall n :: n in cat && n != db.value ==> n in after && after[n] == cat[n]
  {}

  /** How `exp_drop` ends: the database is dropped, it answers false (the
      name is not among the databases it may list), or it raises. */
  datatype DropOutcome = Dropped | NotDropped | DropRaised

  /** `client_db_drop(db)`: `exp_drop` answering false is a refusal, and
      its exception a server error. */
  function Drop(auth: Gate, db: Option<Bytes>, cat: Catalogue, outcome: DropOutcome): (r: (Reply, Catalogue))
    requires TokenVerdict(auth)
    ensures Admitted(auth, db, cat).Reject? ==> r == (Refuse(Admitted(auth, db, cat).status), cat)
    ensures Admitted(auth, db, cat).Pass? && outcome.NotDropped? ==> r == (Refuse(FORBIDDEN), cat)
    ensures Admitted(auth, db, cat).Pass? && outcome.DropRaised? ==> r == (Refuse(SERVER_ERROR), cat)
    ensures r.0.status == STATUS_OK <==> Admitted(auth, db, cat).Pass? && outcome.Dropped?
    ensures r.0.status == STATUS_OK ==>
      db.value !in r.1 && r.1.Keys == cat.Keys - {db.value} && (forall n :: n in r.1 ==> r.1[n] == cat[n])
    ensures r.0.status != STATUS_OK ==> r.1 == cat
  {
    var g := Admitted(auth, db, cat);
    if g.Reject? then (Refuse(g.status), cat)
    else
      match outcome
      case Dropped => (Reply(STATUS_OK, OK_BODY), cat - {db.value})
      case NotDropped => (Refuse(FORBIDDEN), cat)
      case DropRaised => (Refuse(SERVER_ERROR), cat)
  }

  /** `client_db_backup(db, backup_format)`: after the guards, the dump's
      outcome decides; a dump is served as `<db>.<backup_format>`. */
  function Backup(auth: Gate, db: Option<Bytes>, cat: Catalogue, format: Bytes, outcome: DumpOutcome): (r: (int, Option<Bytes>))
    requires TokenVerdict(auth)
    ensures Admitted(auth, db, cat).Reject? ==> r == (Admitted(auth, db, cat).status, None)
    ensures Admitted(auth, db, cat).Pass? ==>
      r.0 == (match outcome case Dumped => STATUS_OK case DumpDenied => FORBIDDEN case DumpFailed => SERVER_ERROR)
    ensures r.1.Some? <==> r.0 == STATUS_OK
    ensures r.1.Some? ==> db.Some? && db.value in cat && r.1.value == db.value + [DOT] + format
  {
    var g := Admitted(auth, db, cat);
    if g.Reject? then (g.status, None)
    else
      match outcome
      case Dumped => (STATUS_OK, Some(db.value + [DOT] + format))
      case DumpDenied => (FORBIDDEN, None)
      case DumpFailed => (SERVER_ERROR, None)
  }

  /** How `restore_db` ends. Odoo's `restore_db` first creates an empty
      database under the name and only then loads the dump into it, so a
      restore that fails after that step leaves the empty database behind
      (`leftEmpty`); one refused as `AccessDenied` never gets that far. */
  datatype RestoreOutcome = Restored(database: Database) | AccessDenied | Failed(leftEmpty: bool)

  /** `client_db_restore(db, backup_file)`: no `require_db_param` here;
      the controller itself refuses a missing name (400) and an existing
      one (409), then the service's outcome decides. */
  function Restore(auth: Gate, db: Option<Bytes>, cat: Catalogue, outcome: RestoreOutcome): (r: (Reply, Catalogue))
    requires TokenVerdict(auth)
    ensures auth.Reject? ==> r == (Refuse(auth.status), cat)
    ensures auth.Pass? && (db.None? || |db.value| == 0) ==> r == (Refuse(BAD_REQUEST), cat)
    ensures auth.Pass? && db.Some? && |db.value| > 0 && db.value in cat ==> r == (Refuse(CONFLICT), cat)
    ensures auth.Pass? && db.Some? && |db.value| > 0 && db.value !in cat ==>
      r.0.status == (match outcome case Restored(_) => STATUS_OK case AccessDenied => FORBIDDEN case Failed(_) => SERVER_ERROR)
    ensures r.0.status == STATUS_OK ==> db.Some? && outcome.Restored? && r.1 == cat[db.value := outcome.database]
    ensures r.0.status == SERVER_ERROR && outcome.Failed? && outcome.leftEmpty ==>
      db.Some? && db.value !in cat && r.1 == cat[db.value := BLANK]
    ensures r.1 != cat ==>
      auth.Pass? && db.Some? && db.value !in cat && r.1.Keys == cat.Keys + {db.value}
      && (outcome.Restored? || outcome == Failed(true))
    ensures r.0.status != STATUS_OK && !(outcome == Failed(true)) ==> r.1 == cat
  {
    if auth.Reject? then (Refuse(auth.status), cat)
    else if db.None? || |db.value| == 0 then (Refuse(BAD_REQUEST), cat)
    else if db.value in cat then (Refuse(CONFLICT), cat)
    else
      match outcome
      case Restored(d) => (Reply(STATUS_OK, OK_BODY), cat[db.value := d])
      case AccessDenied => (Refuse(FORBIDDEN), cat)
      case Failed(leftEmpty) => (Refuse(SERVER_ERROR), if leftEmpty then cat[db.value := BLANK] else cat)
  }

  /** A restore that ends in a server error after the empty database was
      created leaves a database under the requested name, so a retry of the
      same restore is answered 409. */
  lemma FailedRestoreBlocksRetry(db: Bytes, cat: Catalogue, outcome: RestoreOutcome)
    requires |db| > 0 && db !in cat
    ensures var first := Restore(Pass, Some(db), cat, Failed(true));
      first.0.status == SERVER_ERROR && Restore(Pass, Some(db), first.1, outcome).0 == Refuse(CONFLICT)
  {}

  /** Restore, unlike the other endpoints, never answers
      `DatabaseNotExists`: the name it gets is meant to be new. */
  lemma RestoreNeverNotExists(auth: Gate, db: Option<Bytes>, cat: Catalogue, outcome: RestoreOutcome)
    requires TokenVerdict(auth)
    ensures Restore(auth, db, cat, outcome).0.status != DATABASE_NOT_EXISTS
  {}

  const BASE_URL_KEY := "web.base.url"
  const CATCHALL_KEY := "mail.catchall.domain"

  /** `client_db_configure_base_url(db, base_url)`: an empty URL or one the
      host pattern does not match is a bad request; otherwise `web.base.url`
      becomes the URL and `mail.catchall.domain` its host. `host(url)` is
      the pattern's `host` group. */
  function ConfigureBaseUrl(auth: Gate, db: Option<Bytes>, cat: Catalogue, baseUrl: Option<string>, host: string -> Option<string>): (r: (Reply, Catalogue))
    requires TokenVerdict(auth)
    ensures Admitted(auth, db, cat).Reject? ==> r == (Refuse(Admitted(auth, db, cat).status), cat)
    ensures Admitted(auth, db, cat).Pass? && (baseUrl.None? || |baseUrl.value| == 0 || host(baseUrl.value).None?)
      ==> r == (Refuse(BAD_REQUEST), cat)
    ensures r.0.status == STATUS_OK <==>
      Admitted(auth, db, cat).Pass? && baseUrl.Some? && |baseUrl.value| > 0 && host(baseUrl.value).Some?
    ensures r.0.status == STATUS_OK ==>
      db.Some? && db.value in cat && baseUrl.Some? && host(baseUrl.value).Some? && db.value in r.1 &&
      var params := r.1[db.value].params;
      BASE_URL_KEY in params && CATCHALL_KEY in params
      && r.1.Keys == cat.Keys && r.1[db.value].store == cat[db.value].store
      && params[BASE_URL_KEY] == baseUrl.value && params[CATCHALL_KEY] == host(baseUrl.value).value
      && (forall k :: k in cat[db.value].params && k != BASE_URL_KEY && k != CATCHALL_KEY ==> k in params && params[k] == cat[db.value].params[k])
      && (forall n :: n in cat && n != db.value ==> r.1[n] == cat[n])
    ensures r.0.status != STATUS_OK ==> r.1 == cat
  {
    var g := Admitted(auth, db, cat);
    if g.Reject? then (Refuse(g.status), cat)
    else if baseUrl.None? || |baseUrl.value| == 0 then (Refuse(BAD_REQUEST), cat)
    else
      match host(baseUrl.value)
      case None => (Refuse(BAD_REQUEST), cat)
      case Some(h) =>
        var base := cat[db.value];
        var params := base.params[BASE_URL_KEY := baseUrl.value][CATCHALL_KEY := h];
        (Reply(STATUS_OK, OK_BODY), cat[db.value := base.(params := params)])
  }

  /** `client_db_statistic` and `client_db_users_info` of the predecessor:
      the token is checked before the database; the bodies they answer are
      statistics and not modelled, so the answer here is the status. */
  function GuardedReport(auth: Gate, db: Option<Bytes>, cat: Catalogue): (status: int)
    requires TokenVerdict(auth)
    ensures auth.Reject? ==> status == auth.status
    ensures auth.Pass? && (db.None? || |db.value| == 0) ==> status == BAD_REQUEST
    ensures auth.Pass? && db.Some? && |db.value| > 0 && db.value !in cat ==> status == DATABASE_NOT_EXISTS
    ensures status == STATUS_OK <==> Admitted(auth, db, cat).Pass?
  {
    var g := Admitted(auth, db, cat);
    if g.Reject? then g.status else STATUS_OK
  }
}

=== FILE: db_filter.dfy ===
/** `hooks.py`: a database filter driven by the `X-Odoo-Dbfilter` request
    header, installed over the server's own filter when the configuration
    sets `yodoo_db_filter`. Regular-expression matching is a parameter:
    `matches(pattern, name)` is whether `re.match(pattern, name)` succeeds. */
module DbFilter {
  import opened Common

  /** `a` is `b` with some elements left out, the rest in order. */
  predicate Subsequence<T(==)>(a: seq<T>, b: seq<T>)
    decreases |b|
  {
    |a| == 0 || (|b| > 0 && (if a[0] == b[0] then Subsequence(a[1..], b[1..]) else Subsequence(a, b[1..])))
  }

  /** `[db for db in dbs if re.match(pattern, db)]`. */
  function Matching(dbs: seq<Bytes>, pattern: Bytes, matches: (Bytes, Bytes) -> bool): (r: seq<Bytes>)
    ensures forall n :: n in r <==> n in dbs && matches(pattern, n)
    ensures Subsequence(r, dbs)
    ensures forall n :: multiset(r)[n] == if matches(pattern, n) then multiset(dbs)[n] else 0
    decreases |dbs|
  {
    if |dbs| == 0 then []
    else
      var rest := Matching(dbs[1..], pattern, matches);
      assert forall n :: n in dbs <==> n == dbs[0] || n in dbs[1..];
      assert dbs == [dbs[0]] + dbs[1..];
      assert multiset(dbs) == multiset([dbs[0]]) + multiset(dbs[1..]);
      if matches(pattern, dbs[0]) then
        assert ([dbs[0]] + rest)[1..] == rest;
        [dbs[0]] + rest
      else
        SubsequenceSkip(rest, dbs);
        rest
  }

  /** Dropping the head of the longer sequence keeps a subsequence. */
  lemma {:induction false} SubsequenceSkip<T>(a: seq<T>, b: seq<T>)
    requires |b| > 0 && Subsequence(a, b[1..])
    ensures Subsequence(a, b)
    decreases |b|, 0
  {
    if |a| > 0 && a[0] == b[0] {
      SubsequenceTail(a, b[1..]);
    }
  }

  /** A subsequence without its head is still a subsequence. */
  lemma {:induction false} SubsequenceTail<T>(a: seq<T>, b: seq<T>)
    requires |a| > 0 && Subsequence(a, b)
    ensures Subsequence(a[1..], b)
    decreases |b|, 1
  {
    if a[0] != b[0] {
      SubsequenceTail(a, b[1..]);
      SubsequenceSkip(a[1..], b);
    } else if |a| > 1 {
      SubsequenceSkip(a[1..], b);
    }
  }

  /** `db_filter(dbs)`: the server's filter gives `original`; without the
      header, or with an empty one, that is the answer, otherwise only the
      names the header's pattern matches, in their order. */
  function HeaderFilter(original: seq<Bytes>, header: Option<Bytes>, matches: (Bytes, Bytes) -> bool): (r: seq<Bytes>)
    ensures header.None? || |header.value| == 0 ==> r == original
    ensures header.Some? && |header.value| > 0 ==> forall n :: n in r <==> n in original && matches(header.value, n)
    ensures header.Some? && |header.value| > 0 ==>
      forall n :: multiset(r)[n] == if matches(header.value, n) then multiset(original)[n] else 0
    ensures Subsequence(r, original)
  {
    if header.None? || |header.value| == 0 then
      SubsequenceRefl(original);
      original
    else Matching(original, header.value, matches)
  }

  lemma {:induction false} SubsequenceRefl<T>(a: seq<T>)
    ensures Subsequence(a, a)
    decreases |a|
  {
    if |a| > 0 {
      SubsequenceRefl(a[1..]);
    }
  }

  /** A subsequence only holds elements of the sequence. */
  lemma {:induction false} SubsequenceElements<T>(a: seq<T>, b: seq<T>)
    requires Subsequence(a, b)
    ensures forall x :: x in a ==> x in b
    decreases |b|
  {
    if |a| > 0 {
      if a[0] == b[0] {
        SubsequenceElements(a[1..], b[1..]);
        assert forall x :: x in a ==> x == a[0] || x in a[1..];
      } else {
        SubsequenceElements(a, b[1..]);
      }
    }
  }

  /** `_post_load_hook()`: which filter the server runs. With
      `yodoo_db_filter` unset the header is ignored. */
  function ActiveFilter(configured: bool, original: seq<Bytes>, header: Option<Bytes>, matches: (Bytes, Bytes) -> bool): (r: seq<Bytes>)
    ensures !configured ==> r == original
    ensures configured ==> r == HeaderFilter(original, header, matches)
  {
    if configured then HeaderFilter(original, header, matches) else original
  }

  /** Whatever the header says, the installed filter never offers a
      database the server's own filter hides. */
  lemma FilterNeverWidens(configured: bool, original: seq<Bytes>, header: Option<Bytes>, matches: (Bytes, Bytes) -> bool)
    ensures forall n :: n in ActiveFilter(configured, original, header, matches) ==> n in original
  {
    if configured {
      SubsequenceElements(HeaderFilter(original, header, matches), original);
    }
  }
}

=== FILE: easy_backup.dfy ===
/** The easy-backup add-on: two system parameters of a database decide
    whether `GET /yodoo_easy_backup/<token>` streams a dump of it. The
    settings screen writes them; the route reads them. System parameters
    are the database's `params`; writing `False` to one deletes it, and a
    stored value is the `str` of what was written. */
module EasyBackup {
  import opened Common

  const ALLOW_PUBLIC_KEY := "yodoo_easy_backup.backup_allow_public"
  const TOKEN_KEY := "yodoo_easy_backup.backup_token"
  const URL_PREFIX := "/yodoo_easy_backup/"

  /** `get_param(key, False)` read as a Python truth value. */
  predicate Truthy(params: map<string, string>, key: string) {
    key in params && |params[key]| > 0
  }

  /** `set_param(key, value)` for a boolean or a text: `False` deletes the
      parameter, anything else is stored as its `str`. */
  function SetParam(params: map<string, string>, key: string, value: Option<string>): (r: map<string, string>)
    ensures value.None? ==> key !in r
    ensures value.Some? ==> key in r && r[key] == value.value
    ensures forall k :: k != key ==> (k in r <==> k in params) && (k in r ==> r[k] == params[k])
  {
    match value
    case None => params - {key}
    case Some(v) => params[key := v]
  }

  /** `set_values` of the settings screen. Saving with backups allowed
      stores a new `uuid4` as the token each time; `uuid` is that value. */
  function SetValues(params: map<string, string>, allow: bool, allowPublic: bool, uuid: string): (r: map<string, string>)
    requires |uuid| > 0
    ensures Truthy(r, ALLOW_PUBLIC_KEY) <==> allowPublic
    ensures allow ==> TOKEN_KEY in r && r[TOKEN_KEY] == uuid
    ensures !allow ==> TOKEN_KEY !in r
    ensures forall k :: k != ALLOW_PUBLIC_KEY && k != TOKEN_KEY ==> (k in r <==> k in params) && (k in r ==> r[k] == params[k])
  {
    var withPublic := SetParam(params, ALLOW_PUBLIC_KEY, if allowPublic then Some("True") else None);
    SetParam(withPublic, TOKEN_KEY, if allow then Some(uuid) else None)
  }

  /** `get_values`: the two check boxes as the screen shows them. */
  function GetValues(params: map<string, string>): (r: (bool, bool))
    ensures r.0 <==> Truthy(params, TOKEN_KEY)
    ensures r.1 <==> Truthy(params, ALLOW_PUBLIC_KEY)
  {
    (Truthy(params, TOKEN_KEY), Truthy(params, ALLOW_PUBLIC_KEY))
  }

  /** The screen shows what was saved. */
  lemma SettingsRoundTrip(params: map<string, string>, allow: bool, allowPublic: bool, uuid: string)
    requires |uuid| > 0
    ensures GetValues(SetValues(params, allow, allowPublic, uuid)) == (allow, allowPublic)
  {}

  /** `_compute_yodoo_easy_backup_url`: the route with the stored token, or
      nothing when there is none. */
  function BackupUrl(params: map<string, string>): (r: Option<string>)
    ensures r.Some? <==> Truthy(params, TOKEN_KEY)
    ensures r.Some? ==>
      |r.value| > |URL_PREFIX| && r.value[..|URL_PREFIX|] == URL_PREFIX && r.value[|URL_PREFIX|..] == params[TOKEN_KEY]
  {
    if Truthy(params, TOKEN_KEY) then Some(URL_PREFIX + params[TOKEN_KEY]) else None
  }

  /** How the route answers. Every refusal is a 403; they are told apart
      here by why. */
  datatype Answer =
    | NotAllowed          // neither public backups nor a system user
    | Disabled            // no token stored
    | WrongToken          // the path's token is not the stored one
    | Denied              // the dump raised `AccessDenied`
    | Crashed             // the dump raised anything else: 500
    | Served(filename: string)

  function Status(a: Answer): int {
    match a
    case Served(_) => STATUS_OK
    case Crashed => SERVER_ERROR
    case _ => FORBIDDEN
  }

  /** The name of a served dump, `<db>-<timestamp>.zip`; `stamp` is the
      clock formatted as `%Y-%m-%d--%H-%M-%S`. */
  function DumpName(db: string, stamp: string): string {
    db + "-" + stamp + ".zip"
  }

  /** The guards of `yodoo_easy_backu(token)`, in order. */
  function Admit(params: map<string, string>, isSystem: bool, token: string): (r: Option<Answer>)
    ensures r.None? <==>
      (Truthy(params, ALLOW_PUBLIC_KEY) || isSystem) && Truthy(params, TOKEN_KEY) && params[TOKEN_KEY] == token
    ensures r.Some? ==> Status(r.value) == FORBIDDEN
    ensures !(Truthy(params, ALLOW_PUBLIC_KEY) || isSystem) ==> r == Some(NotAllowed)
  {
    if !(Truthy(params, ALLOW_PUBLIC_KEY) || isSystem) then Some(NotAllowed)
    else if !Truthy(params, TOKEN_KEY) then Some(Disabled)
    else if params[TOKEN_KEY] != token then Some(WrongToken)
    else None
  }

  /** `yodoo_easy_backu(token)` on database `db`. */
  function Serve(params: map<string, string>, isSystem: bool, token: string, db: string, stamp: string, outcome: DumpOutcome): (r: Answer)
    ensures r.Served? <==> Admit(params, isSystem, token).None? && outcome == Dumped
    ensures r.Served? ==> r.filename == DumpName(db, stamp)
    ensures Admit(params, isSystem, token).Some? ==> r == Admit(params, isSystem, token).value
  {
    match Admit(params, isSystem, token)
    case Some(refusal) => refusal
    case None =>
      match outcome
      case Dumped => Served(DumpName(db, stamp))
      case DumpDenied => Denied
      case DumpFailed => Crashed
  }

  /** The URL the settings screen shows after allowing backups is one the
      route accepts: from anyone when public backups are allowed, else from
      a system user. */
  lemma ShownUrlIsAccepted(params: map<string, string>, allowPublic: bool, uuid: string, isSystem: bool)
    requires |uuid| > 0
    requires allowPublic || isSystem
    ensures var saved := SetValues(params, true, allowPublic, uuid);
      BackupUrl(saved) == Some(URL_PREFIX + uuid) && Admit(saved, isSystem, uuid).None?
  {}

  /** With backups not allowed every request is refused, whatever its token. */
  lemma DisallowedRefusesAll(params: map<string, string>, allowPublic: bool, uuid: string, isSystem: bool, token: string)
    requires |uuid| > 0
    ensures Admit(SetValues(params, false, allowPublic, uuid), isSystem, token).Some?
    ensures BackupUrl(SetValues(params, false, allowPublic, uuid)).None?
  {}

  /** Saving the settings again with a new token revokes the old URL. */
  lemma ResaveRevokes(params: map<string, string>, allowPublic: bool, earlier: string, later: string, isSystem: bool)
    requires |earlier| > 0 && |later| > 0 && earlier != later
    ensures var first := SetValues(params, true, allowPublic, earlier);
      Admit(SetValues(first, true, allowPublic, later), isSystem, earlier).Some?
  {}

  /** Public backups do not lift the token check. */
  lemma PublicStillNeedsToken(params: map<string, string>, uuid: string, token: string, isSystem: bool)
    requires |uuid| > 0 && token != uuid
    ensures Admit(SetValues(params, true, true, uuid), isSystem, token) == Some(WrongToken)
  {}
}

=== FILE: guards.dfy ===
/** The guards that run before a controller body: the shared-secret check,
    where the supplied digest comes from, the two feature flags and the
    database parameter check. Each yields a `Gate`. */
module Guards {
  import opened Common

  /** A secret the configuration leaves unset or empty is falsy. */
  predicate Configured(secret: Option<Bytes>) {
    secret.Some? && |secret.value| > 0
  }

  /** `check_saas_client_token(token_hash)`. `digest` stands for the SHA-256
      hex digest of the configured secret. The newer add-on raises `NotFound`
      and `Forbidden`; its predecessor returns the same two responses. */
  function CheckToken(secret: Option<Bytes>, digest: Bytes -> Bytes, supplied: Option<Bytes>): (g: Gate)
    ensures g.Pass? <==> Configured(secret) && supplied == Some(digest(secret.value))
    ensures !Configured(secret) ==> g == Reject(NOT_FOUND)
    ensures Configured(secret) && g.Reject? ==> g == Reject(FORBIDDEN)
  {
    if !Configured(secret) then Reject(NOT_FOUND)
    else if supplied == Some(digest(secret.value)) then Pass
    else Reject(FORBIDDEN)
  }

  /** Without a secret no digest whatsoever gets through, and the answer is
      the same 404 for every request. */
  lemma UnsetSecretRefusesAll(secret: Option<Bytes>, digest: Bytes -> Bytes, a: Option<Bytes>, b: Option<Bytes>)
    requires !Configured(secret)
    ensures CheckToken(secret, digest, a) == CheckToken(secret, digest, b) == Reject(NOT_FOUND)
  {}

  /** With a secret exactly one supplied value passes: two values that both
      pass are equal. */
  lemma OneDigestPasses(secret: Option<Bytes>, digest: Bytes -> Bytes, a: Option<Bytes>, b: Option<Bytes>)
    requires CheckToken(secret, digest, a).Pass? && CheckToken(secret, digest, b).Pass?
    ensures a == b
  {}

  /** `require_saas_token` of `http_decorators`: the digest is the
      `X-YODOO-TOKEN` header when the request carries one, otherwise the
      `token_hash` parameter, and it is checked before the handler runs. */
  function RequireTokenFromRequest(secret: Option<Bytes>, digest: Bytes -> Bytes, header: Option<Bytes>, param: Option<Bytes>): (g: Gate)
    ensures header.Some? ==> g == CheckToken(secret, digest, header)
    ensures header.None? ==> g == CheckToken(secret, digest, param)
  {
    CheckToken(secret, digest, if header.Some? then header else param)
  }

  /** When the header is present the parameter plays no part, even an
      empty header. */
  lemma HeaderOverridesParam(secret: Option<Bytes>, digest: Bytes -> Bytes, header: Bytes, p: Option<Bytes>, q: Option<Bytes>)
    ensures RequireTokenFromRequest(secret, digest, Some(header), p) == RequireTokenFromRequest(secret, digest, Some(header), q)
  {}

  /** `get_admin_access_options()`: `admin_access_url` and
      `admin_access_credentials`, each on unless the configuration turns it
      off. */
  function AdminAccessOptions(c: Config): (r: (bool, bool))
    ensures r.0 <==> c.adminAccessUrl != Some(false)
    ensures r.1 <==> c.adminAccessCredentials != Some(false)
  {
    (c.adminAccessUrl.GetOr(true), c.adminAccessCredentials.GetOr(true))
  }

  /** A disabled feature answers `Forbidden`. */
  function Feature(enabled: bool): (g: Gate)
    ensures g.Pass? <==> enabled
    ensures g.Reject? ==> g.status == FORBIDDEN
  {
    if enabled then Pass else Reject(FORBIDDEN)
  }

  /** `require_db_param`: a missing or empty `db` is a bad request, a name
      the server does not have is `DatabaseNotExists`; otherwise the handler
      runs with its arguments untouched. */
  function RequireDb(db: Option<Bytes>, names: set<Bytes>): (g: Gate)
    ensures g.Pass? <==> db.Some? && |db.value| > 0 && db.value in names
    ensures (db.None? || |db.value| == 0) ==> g == Reject(BAD_REQUEST)
    ensures db.Some? && |db.value| > 0 && db.value !in names ==> g == Reject(DATABASE_NOT_EXISTS)
  {
    if db.None? || |db.value| == 0 then Reject(BAD_REQUEST)
    else if db.value !in names then Reject(DATABASE_NOT_EXISTS)
    else Pass
  }

  /** A handler decorated with `require_saas_token` and then
      `require_db_param`: the token check is the outer one. */
  function TokenThenDb(secret: Option<Bytes>, digest: Bytes -> Bytes, supplied: Option<Bytes>, db: Option<Bytes>, names: set<Bytes>): (g: Gate)
    ensures g.Pass? <==> CheckToken(secret, digest, supplied).Pass? && RequireDb(db, names).Pass?
    ensures CheckToken(secret, digest, supplied).Reject? ==> g == CheckToken(secret, digest, supplied)
  {
    var gates := [CheckToken(secret, digest, supplied), RequireDb(db, names)];
    assert gates[0] == CheckToken(secret, digest, supplied) && gates[1] == RequireDb(db, names);
    First(gates)
  }

  /** A request failing the token check learns nothing about the databases:
      its answer is the same whatever `db` names. */
  lemma TokenHidesDatabases(secret: Option<Bytes>, digest: Bytes -> Bytes, supplied: Option<Bytes>, d1: Option<Bytes>, d2: Option<Bytes>, names: set<Bytes>)
    requires CheckToken(secret, digest, supplied).Reject?
    ensures TokenThenDb(secret, digest, supplied, d1, names) == TokenThenDb(secret, digest, supplied, d2, names)
  {}
}

=== FILE: instance.dfy ===
/** The server as the controllers see it: the catalogue of databases by
    name, each with its credential table and its `ir.config_parameter`
    settings. `exp_db_exist(name)` is membership in the catalogue. */
module Instance {
  import opened Common
  import opened CredentialStore

  /** One database: the rows of `odoo_infrastructure_client_auth` and the
      system parameters. */
  datatype Database = Database(store: Store, params: map<string, string>)

  type Catalogue = map<Bytes, Database>

  /** Every credential table keeps its ids unique. */
  predicate CatalogueValid(cat: Catalogue) {
    forall n :: n in cat ==> Valid(cat[n].store)
  }

  /** A database just created: no credential rows, no parameters. */
  const BLANK := Database(EMPTY, map[])
}

=== FILE: minting.dfy ===
/** Minting temporary credentials: `prepare_temporary_auth_data` and the
    `create_temporary_login_data` controller, in the newer add-on (`Yodoo`)
    and its predecessor (`Infrastructure`). The two differ only in the route
    prefix of `temp_url`; the predecessor returns the 403 it builds where the
    newer one raises it. The clock reading, the two `uuid4()` strings and the
    shuffled letters are inputs. */
module Minting {
  import opened Common
  import opened Text
  import Base64
  import RandomToken
  import opened CredentialStore
  import opened Instance
  import opened Guards

  /** `DEFAULT_TIME_TO_LOGIN`, seconds. */
  const DEFAULT_TIME_TO_LOGIN: int := 3600

  /** `ttl or DEFAULT_TIME_TO_LOGIN`: an absent ttl or a zero ttl is falsy
      and gives the default. */
  function EffectiveTtl(ttl: Option<int>): (t: int)
    ensures t != 0
    ensures ttl.Some? && ttl.value != 0 ==> t == ttl.value
    ensures ttl.None? || ttl == Some(0) ==> t == DEFAULT_TIME_TO_LOGIN
  {
    if ttl.None? || ttl.value == 0 then DEFAULT_TIME_TO_LOGIN else ttl.value
  }

  /** The route `temp_url` points at. */
  function UrlPrefix(v: Variant): Bytes {
    match v
    case Yodoo => Ascii("/saas/client/auth/")
    case Infrastructure => Ascii("/saas_auth/")
  }

  /** `'%s:%s:%s' % (db, token_temp, token_hash)`, encoded as UTF-8. */
  function Payload(db: Bytes, temp: Bytes, hash: Bytes): Bytes {
    Join([db, temp, hash], COLON)
  }

  /** What `uuid4()` twice and `shuffle(letters)` produced. */
  datatype Choices = Choices(uuidUser: Bytes, uuidPassword: Bytes, shuffled: Bytes)

  /** The shuffle is a permutation of the letters; a uuid string is never
      empty. */
  predicate ChoicesValid(ch: Choices) {
    multiset(ch.shuffled) == multiset(RandomToken.Letters())
    && |ch.uuidUser| > 0 && |ch.uuidPassword| > 0
  }

  /** The dictionary `prepare_temporary_auth_data` returns; its five fields
      are its five keys. `expire` is seconds on the server clock. */
  datatype AuthData = AuthData(tokenUser: Bytes, tokenPassword: Bytes, tempUrl: Bytes, expire: int, tokenTemp: Bytes)

  /** A text that can stand as one field of the payload: the UTF-8 of a
      string without `:`. */
  predicate Field(b: Bytes) {
    IsUtf8(b) && COLON !in b
  }

  /** `prepare_temporary_auth_data(ttl, db, token_hash)` at time `now`. */
  function PrepareAuthData(v: Variant, ttl: Option<int>, db: Bytes, hash: Bytes, now: int, ch: Choices): (d: AuthData)
    requires ChoicesValid(ch)
    ensures |d.tokenTemp| == RandomToken.TOKEN_LENGTH
    ensures forall k :: 0 <= k < |d.tokenTemp| ==> RandomToken.IsAlnum(d.tokenTemp[k])
    ensures d.expire - now == EffectiveTtl(ttl)
    ensures d.tokenUser == ch.uuidUser && d.tokenPassword == ch.uuidPassword
    ensures d.tempUrl == UrlPrefix(v) + Base64.Encode(Payload(db, d.tokenTemp, hash))
  {
    var temp := RandomToken.Generate(RandomToken.TOKEN_LENGTH, ch.shuffled);
    AuthData(ch.uuidUser, ch.uuidPassword, UrlPrefix(v) + Base64.Encode(Payload(db, temp, hash)), now + EffectiveTtl(ttl), temp)
  }

  /** The random token is alphanumeric, so it is a payload field. */
  lemma TokenIsField(t: Bytes)
    requires forall k :: 0 <= k < |t| ==> RandomToken.IsAlnum(t[k])
    ensures Field(t)
  {
    AsciiIsUtf8(t, 0);
  }

  /** A payload of three fields is well-formed UTF-8 and splits on `:`
      into exactly those fields. */
  lemma PayloadParses(db: Bytes, temp: Bytes, hash: Bytes)
    requires Field(db) && Field(temp) && Field(hash)
    ensures IsUtf8(Payload(db, temp, hash))
    ensures Split(Payload(db, temp, hash), COLON) == [db, temp, hash]
  {
    SplitJoin3(db, temp, hash, COLON);
    Join3(db, temp, hash, COLON);
    assert IsAscii([COLON]);
    AsciiIsUtf8([COLON], 0);
    Utf8Append(temp, [COLON]);
    Utf8Append(temp + [COLON], hash);
    Utf8Append(db, [COLON]);
    Utf8Append(db + [COLON], temp + [COLON] + hash);
  }

  /** Round trip of the URL: what follows the prefix base64-decodes to a
      UTF-8 payload that splits on `:` into exactly the database name, the
      token and the digest, provided neither name nor digest holds a `:`. */
  lemma TempUrlRoundTrip(v: Variant, ttl: Option<int>, db: Bytes, hash: Bytes, now: int, ch: Choices)
    requires ChoicesValid(ch) && Field(db) && Field(hash)
    ensures var d := PrepareAuthData(v, ttl, db, hash, now, ch);
      var payload := Base64.Decode(d.tempUrl[|UrlPrefix(v)|..]);
      payload.Some? && IsUtf8(payload.value) && Split(payload.value, COLON) == [db, d.tokenTemp, hash]
  {
    var d := PrepareAuthData(v, ttl, db, hash, now, ch);
    var p := Payload(db, d.tokenTemp, hash);
    assert d.tempUrl[|UrlPrefix(v)|..] == Base64.Encode(p);
    Base64.DecodeEncode(p);
    TokenIsField(d.tokenTemp);
    PayloadParses(db, d.tokenTemp, hash);
  }

  /** The reply of the mint controller. */
  datatype MintReply = Minted(data: AuthData) | MintRefused(status: int)

  /** `after` is `before` with one row holding `d`'s four stored fields
      appended to the table of `db`, and nothing else changed. */
  predicate Stored(before: Catalogue, after: Catalogue, db: Bytes, d: AuthData) {
    db in before && db in after && after.Keys == before.Keys
    && (forall n :: n in before && n != db ==> after[n] == before[n])
    && after[db].params == before[db].params
    && var was := before[db].store.rows;
       var rows := after[db].store.rows;
       |rows| == |was| + 1 && rows[..|was|] == was
       && rows[|was|].tokenUser == d.tokenUser && rows[|was|].tokenPassword == d.tokenPassword
       && rows[|was|].expire == d.expire && rows[|was|].tokenTemp == Some(d.tokenTemp)
       && forall c :: c in was ==> c.id != rows[|was|].id
  }

  /** `create_temporary_login_data(db, ttl, token_hash)`: the token check,
      then `require_db_param`, then the `admin_access_credentials` flag;
      the first that fails is the answer and nothing is inserted. Otherwise
      one row is inserted and the data is answered with status 200. */
  function Mint(v: Variant, cfg: Config, digest: Bytes -> Bytes, cat: Catalogue, db: Option<Bytes>, ttl: Option<int>,
                tokenHash: Option<Bytes>, now: int, ch: Choices): (r: (MintReply, Catalogue))
    requires CatalogueValid(cat) && ChoicesValid(ch)
    ensures CatalogueValid(r.1)
    ensures r.0.Minted? <==>
      CheckToken(cfg.secret, digest, tokenHash).Pass? && RequireDb(db, cat.Keys).Pass? && AdminAccessOptions(cfg).1
    ensures CheckToken(cfg.secret, digest, tokenHash).Reject? ==> r.0 == MintRefused(CheckToken(cfg.secret, digest, tokenHash).status)
    ensures CheckToken(cfg.secret, digest, tokenHash).Pass? && RequireDb(db, cat.Keys).Reject?
      ==> r.0 == MintRefused(RequireDb(db, cat.Keys).status)
    ensures CheckToken(cfg.secret, digest, tokenHash).Pass? && RequireDb(db, cat.Keys).Pass? && !AdminAccessOptions(cfg).1
      ==> r.0 == MintRefused(FORBIDDEN)
    ensures r.0.MintRefused? ==> r.1 == cat
    ensures r.0.Minted? ==>
      db.Some? && tokenHash.Some?
      && r.0.data == PrepareAuthData(v, ttl, db.value, tokenHash.value, now, ch)
      && Stored(cat, r.1, db.value, r.0.data)
  {
    var token := CheckToken(cfg.secret, digest, tokenHash);
    var dbGate := RequireDb(db, cat.Keys);
    if token.Reject? then (MintRefused(token.status), cat)
    else if dbGate.Reject? then (MintRefused(dbGate.status), cat)
    else if !AdminAccessOptions(cfg).1 then (MintRefused(FORBIDDEN), cat)
    else
      var d := PrepareAuthData(v, ttl, db.value, tokenHash.value, now, ch);
      (Minted(d), Record(cat, db.value, d))
  }

  /** The `INSERT` of a successful mint into the table of `db`. */
  function Record(cat: Catalogue, db: Bytes, d: AuthData): (after: Catalogue)
    requires CatalogueValid(cat) && db in cat
    ensures CatalogueValid(after) && Stored(cat, after, db, d)
  {
    var base := cat[db];
    var store := Insert(base.store, d.tokenUser, d.tokenPassword, d.expire, Some(d.tokenTemp));
    cat[db := base.(store := store)]
  }

  /** The two generations mint the same rows and the same data except for
      the prefix of `temp_url`. */
  lemma VariantsMintAlike(cfg: Config, digest: Bytes -> Bytes, cat: Catalogue, db: Option<Bytes>, ttl: Option<int>,
                          tokenHash: Option<Bytes>, now: int, ch: Choices)
    requires CatalogueValid(cat) && ChoicesValid(ch)
    ensures var y := Mint(Yodoo, cfg, digest, cat, db, ttl, tokenHash, now, ch);
      var i := Mint(Infrastructure, cfg, digest, cat, db, ttl, tokenHash, now, ch);
      y.1 == i.1 && y.0.Minted? == i.0.Minted?
      && (y.0.MintRefused? ==> y.0 == i.0)
      && (y.0.Minted? ==>
            y.0.data.(tempUrl := i.0.data.tempUrl) == i.0.data
            && y.0.data.tempUrl[|UrlPrefix(Yodoo)|..] == i.0.data.tempUrl[|UrlPrefix(Infrastructure)|..])
  {
    var y := Mint(Yodoo, cfg, digest, cat, db, ttl, tokenHash, now, ch);
    var i := Mint(Infrastructure, cfg, digest, cat, db, ttl, tokenHash, now, ch);
    if y.0.Minted? {
      var dy := PrepareAuthData(Yodoo, ttl, db.value, tokenHash.value, now, ch);
      var di := PrepareAuthData(Infrastructure, ttl, db.value, tokenHash.value, now, ch);
      assert dy.tempUrl[|UrlPrefix(Yodoo)|..] == di.tempUrl[|UrlPrefix(Infrastructure)|..];
      assert dy.(tempUrl := di.tempUrl) == di;
      assert y.1 == Record(cat, db.value, dy) && i.1 == Record(cat, db.value, di);
      assert Record(cat, db.value, dy) == Record(cat, db.value, di);
    }
  }
}

=== FILE: oldest_auth.dfy ===
/** The original mint controller, `create_temporary_login_data` of the
    root `controllers/odoo_infrastructure_auth.py`: it compares the raw
    configured token with the supplied one (no digest), answers errors in
    the JSON body, and stores a pair without a one-time token. Its request
    parameters are read by subscript, so a missing one raises `KeyError`,
    a server error. */
module OldestAuth {
  import opened Common
  import opened CredentialStore
  import opened Instance
  import opened Guards
  import Minting

  /** The JSON body: the three credential keys, or only `error`. */
  datatype Body = Credentials(tokenUser: Bytes, tokenPassword: Bytes, expire: int) | Error(message: string)

  /** An answer with status 200 and a body, or an uncaught exception. */
  datatype Answer = Answer(body: Body) | Crash

  const NO_DATABASE := "DB with this name is not found."
  const NO_MATCH := "Token does not match."

  /** `create_temporary_login_data(**params)`: `db`, `token` and `ttl` are the
      request parameters `db`, `odoo_infrastructure_token` and `ttl`, each
      `None` when absent; `secret` is the configured
      `odoo_infrastructure_token`. */
  function MintOldest(secret: Option<Bytes>, cat: Catalogue, db: Option<Bytes>, token: Option<Bytes>, ttl: Option<int>,
                      now: int, uuidUser: Bytes, uuidPassword: Bytes): (r: (Answer, Catalogue))
    requires CatalogueValid(cat)
    ensures CatalogueValid(r.1)
    ensures db.None? ==> r == (Crash, cat)
    ensures db.Some? && db.value !in cat ==> r == (Answer(Error(NO_DATABASE)), cat)
    ensures db.Some? && db.value in cat && !Configured(secret) ==> r == (Answer(Error(NO_MATCH)), cat)
    ensures db.Some? && db.value in cat && Configured(secret) && token.Some? && token != secret
      ==> r == (Answer(Error(NO_MATCH)), cat)
    ensures r.0.Answer? && r.0.body.Credentials? <==>
      db.Some? && db.value in cat && Configured(secret) && token == secret && ttl.Some?
    ensures r.0.Answer? && r.0.body.Credentials? ==>
      r.0.body == Credentials(uuidUser, uuidPassword, now + Minting.EffectiveTtl(ttl))
      && r.1 == cat[db.value := cat[db.value].(store :=
           Insert(cat[db.value].store, uuidUser, uuidPassword, now + Minting.EffectiveTtl(ttl), None))]
    ensures !(r.0.Answer? && r.0.body.Credentials?) ==> r.1 == cat
  {
    if db.None? then (Crash, cat)
    else if db.value !in cat then (Answer(Error(NO_DATABASE)), cat)
    else if !Configured(secret) then (Answer(Error(NO_MATCH)), cat)
    else if token.None? then (Crash, cat)
    else if token != secret then (Answer(Error(NO_MATCH)), cat)
    else if ttl.None? then (Crash, cat)
    else
      var expire := now + Minting.EffectiveTtl(ttl);
      var base := cat[db.value];
      (Answer(Credentials(uuidUser, uuidPassword, expire)),
       cat[db.value := base.(store := Insert(base.store, uuidUser, uuidPassword, expire, None))])
  }

  /** The secret itself, not its digest, opens this controller: sending the
      digest a newer server sends is refused unless digest and secret
      coincide. */
  lemma RawTokenComparison(secret: Bytes, digest: Bytes -> Bytes, cat: Catalogue, db: Bytes, ttl: int,
                           now: int, uuidUser: Bytes, uuidPassword: Bytes)
    requires CatalogueValid(cat) && db in cat && |secret| > 0 && digest(secret) != secret
    ensures MintOldest(Some(secret), cat, Some(db), Some(digest(secret)), Some(ttl), now, uuidUser, uuidPassword)
      == (Answer(Error(NO_MATCH)), cat)
    ensures CheckToken(Some(secret), digest, Some(digest(secret))).Pass?
  {}

  /** A row stored by this controller has no one-time token, so no URL can
      redeem it: only the login pair reaches it. */
  lemma OldestRowsNotRedeemable(secret: Option<Bytes>, cat: Catalogue, db: Bytes, token: Option<Bytes>, ttl: Option<int>,
                                now: int, uuidUser: Bytes, uuidPassword: Bytes, temp: Bytes, later: int)
    requires CatalogueValid(cat) && db in cat
    requires forall c :: c in cat[db].store.rows ==> !Redeemable(c, temp, later)
    ensures var r := MintOldest(secret, cat, Some(db), token, ttl, now, uuidUser, uuidPassword);
      forall c :: c in r.1[db].store.rows ==> !Redeemable(c, temp, later)
  {
    var r := MintOldest(secret, cat, Some(db), token, ttl, now, uuidUser, uuidPassword);
    forall c | c in r.1[db].store.rows
      ensures !Redeemable(c, temp, later)
    {
      if c !in cat[db].store.rows {
        var rows := r.1[db].store.rows;
        var k :| 0 <= k < |rows| && rows[k] == c;
        assert k == |cat[db].store.rows|;
      }
    }
  }
}

=== FILE: protocol.dfy ===
/** Properties of the whole protocol: a minted URL logs in once, then never
    again; it stops working when its row expires; refusals leave every table
    as it was; the checks come before any table is read; and the two add-on
    generations differ only where their sources differ. */
module Protocol {
  import opened Common
  import opened Text
  import Base64
  import RandomToken
  import opened CredentialStore
  import opened Instance
  import opened Guards
  import opened Users
  import opened Minting
  import opened Redemption

  /** The part of `temp_url` the redemption route receives as `token`. */
  function UrlToken(v: Variant, d: AuthData): Bytes
    requires |d.tempUrl| >= |UrlPrefix(v)|
  {
    d.tempUrl[|UrlPrefix(v)|..]
  }

  /** The URL segment of freshly minted data parses into the three fields it
      was made from. */
  lemma ParseMinted(v: Variant, ttl: Option<int>, db: Bytes, hash: Bytes, now: int, ch: Choices)
    requires ChoicesValid(ch) && Field(db) && Field(hash)
    ensures var d := PrepareAuthData(v, ttl, db, hash, now, ch);
      ParseToken(UrlToken(v, d)) == Parsed(db, d.tokenTemp, hash)
  {
    var d := PrepareAuthData(v, ttl, db, hash, now, ch);
    TempUrlRoundTrip(v, ttl, db, hash, now, ch);
    var p := ParseToken(UrlToken(v, d));
    SplitJoin3(p.db, p.temp, p.hash, COLON);
  }

  /** The minting request the server issues with the right digest, as a
      function of the configuration. */
  function MintFor(v: Variant, cfg: Config, digest: Bytes -> Bytes, cat: Catalogue, db: Bytes, ttl: Option<int>, now: int, ch: Choices): (r: (MintReply, Catalogue))
    requires CatalogueValid(cat) && ChoicesValid(ch) && Configured(cfg.secret)
    ensures r.0.Minted? <==> |db| > 0 && db in cat && AdminAccessOptions(cfg).1
  {
    Mint(v, cfg, digest, cat, Some(db), ttl, Some(digest(cfg.secret.value)), now, ch)
  }

  /** A segment that passes every check and whose token only one live row
      carries logs into that row's pair and deletes exactly that row. */
  lemma RedeemOnlyCarrier(v: Variant, cfg: Config, digest: Bytes -> Bytes, cat: Catalogue, token: Bytes, now: int, c: Credential)
    requires CatalogueValid(cat)
    requires var p := ParseToken(token);
      p.Parsed? && CheckToken(cfg.secret, digest, Some(p.hash)).Pass? && AdminAccessOptions(cfg).0 && p.db in cat
      && c in cat[p.db].store.rows && Redeemable(c, p.temp, now)
      && forall e :: e in cat[p.db].store.rows && Redeemable(e, p.temp, now) ==> e == c
    ensures var p := ParseToken(token);
      var rows := cat[p.db].store.rows;
      Redeem(v, cfg, digest, cat, token, now)
        == (Redirect(Session(p.db, Login(Current, rows, c.tokenUser, c.tokenPassword, now, Denied))),
            cat[p.db := cat[p.db].(store := DeleteId(cat[p.db].store, c.id))])
  {
    var p := ParseToken(token);
    assert Lookup(cat[p.db].store.rows, p.temp, now) == Some(c);
  }

  /** The table right after a mint: the earlier rows, then the new one,
      which is live until `expire` and the only row with its token. */
  lemma AfterMint(v: Variant, cfg: Config, digest: Bytes -> Bytes, cat: Catalogue, db: Bytes, ttl: Option<int>,
                  now: int, ch: Choices)
    requires CatalogueValid(cat) && ChoicesValid(ch)
    requires Configured(cfg.secret) && AdminAccessOptions(cfg).1 && db in cat && |db| > 0
    requires forall c :: c in cat[db].store.rows ==>
      c.tokenTemp != Some(RandomToken.Generate(RandomToken.TOKEN_LENGTH, ch.shuffled))
    ensures var m := MintFor(v, cfg, digest, cat, db, ttl, now, ch);
      var was := cat[db].store.rows;
      var rows := m.1[db].store.rows;
      m.0.Minted? && |rows| == |was| + 1 && rows == was + [rows[|was|]]
      && rows[|was|].tokenTemp == Some(m.0.data.tokenTemp)
      && rows[|was|].expire == now + EffectiveTtl(ttl)
      && |rows[|was|].tokenUser| > 0 && |rows[|was|].tokenPassword| > 0
      && (forall e :: e in was ==> e.tokenTemp != Some(m.0.data.tokenTemp) && e.id != rows[|was|].id)
      && m.1.Keys == cat.Keys && (forall n :: n in cat && n != db ==> m.1[n] == cat[n])
      && m.0.data == PrepareAuthData(v, ttl, db, digest(cfg.secret.value), now, ch)
  {
    var m := MintFor(v, cfg, digest, cat, db, ttl, now, ch);
    var was := cat[db].store.rows;
    var rows := m.1[db].store.rows;
    assert rows == rows[..|was|] + [rows[|was|]];
  }

  /** Deleting the row a mint appended restores the table's rows and
      leaves the other databases alone. */
  lemma DeleteUndoesAppend(cat: Catalogue, cat1: Catalogue, db: Bytes, c: Credential)
    requires CatalogueValid(cat1) && db in cat && db in cat1
    requires cat1.Keys == cat.Keys && forall n :: n in cat && n != db ==> cat1[n] == cat[n]
    requires cat1[db].store.rows == cat[db].store.rows + [c]
    requires forall e :: e in cat[db].store.rows ==> e.id != c.id
    ensures var cat2 := cat1[db := cat1[db].(store := DeleteId(cat1[db].store, c.id))];
      cat2.Keys == cat.Keys && cat2[db].store.rows == cat[db].store.rows
      && forall n :: n in cat && n != db ==> cat2[n] == cat[n]
  {
    KeepDropsLast(cat[db].store.rows, c, OtherId(c.id));
  }

  /** Mint, then follow the URL before it expires: the visitor is logged
      into `db` as the superuser, and the table of `db` is back to the rows
      it had before the mint. The new token must not already sit in the
      table, which the 128 random symbols make overwhelmingly likely. */
  lemma MintThenRedeem(v: Variant, cfg: Config, digest: Bytes -> Bytes, cat: Catalogue, db: Bytes, ttl: Option<int>,
                       now: int, ch: Choices, later: int)
    requires CatalogueValid(cat) && ChoicesValid(ch)
    requires Configured(cfg.secret) && AdminAccessOptions(cfg).0 && AdminAccessOptions(cfg).1
    requires db in cat && |db| > 0 && Field(db) && Field(digest(cfg.secret.value))
    requires later < now + EffectiveTtl(ttl)
    requires forall c :: c in cat[db].store.rows ==>
      c.tokenTemp != Some(RandomToken.Generate(RandomToken.TOKEN_LENGTH, ch.shuffled))
    ensures var m := MintFor(v, cfg, digest, cat, db, ttl, now, ch);
      m.0.Minted? &&
      var r := Redeem(v, cfg, digest, m.1, UrlToken(v, m.0.data), later);
      r.0 == Redirect(Session(db, Uid(SUPERUSER_ID)))
      && r.1.Keys == cat.Keys && r.1[db].store.rows == cat[db].store.rows
      && forall n :: n in cat && n != db ==> r.1[n] == cat[n]
  {
    var hash := digest(cfg.secret.value);
    AfterMint(v, cfg, digest, cat, db, ttl, now, ch);
    var m := MintFor(v, cfg, digest, cat, db, ttl, now, ch);
    var d := m.0.data;
    var cat1 := m.1;
    ParseMinted(v, ttl, db, hash, now, ch);
    var was := cat[db].store.rows;
    var rows := cat1[db].store.rows;
    var added := rows[|was|];
    assert added in rows;
    forall e | e in rows && Redeemable(e, d.tokenTemp, later)
      ensures e == added
    {
      if e !in was {
        assert e == added;
      }
    }
    RedeemOnlyCarrier(v, cfg, digest, cat1, UrlToken(v, d), later, added);
    RedeemedRowLogsIn(rows, added, d.tokenTemp, later, Denied);
    DeleteUndoesAppend(cat, cat1, db, added);
  }

  /** A URL works once: after a successful redemption the same URL is
      refused as a missing row, at any later time, with nothing changed, as
      long as one row carried its token. */
  lemma ReplayRefused(v: Variant, cfg: Config, digest: Bytes -> Bytes, cat: Catalogue, token: Bytes, now: int, later: int)
    requires CatalogueValid(cat)
    requires Redeem(v, cfg, digest, cat, token, now).0.Redirect?
    requires var p := ParseToken(token); p.Parsed? && p.db in cat ==> OneCarrier(cat[p.db].store.rows, p.temp)
    ensures var cat1 := Redeem(v, cfg, digest, cat, token, now).1;
      Redeem(v, cfg, digest, cat1, token, later) == (RedeemRefused(MissingRowStatus(v)), cat1)
  {
    var p := ParseToken(token);
    var r := Redeem(v, cfg, digest, cat, token, now);
    var rows := cat[p.db].store.rows;
    var c :| c in rows && Redeemable(c, p.temp, now)
      && r.1 == cat[p.db := cat[p.db].(store := DeleteId(cat[p.db].store, c.id))];
    var cat1 := r.1;
    forall e | e in cat1[p.db].store.rows
      ensures !Redeemable(e, p.temp, later)
    {
      assert e in rows && e.id != c.id;
    }
  }

  /** Once the ttl has run out the URL is refused as a missing row, and the
      expired row stays until the sweep removes it. */
  lemma ExpiredUrlRefused(v: Variant, cfg: Config, digest: Bytes -> Bytes, cat: Catalogue, db: Bytes, ttl: Option<int>,
                          now: int, ch: Choices, later: int)
    requires CatalogueValid(cat) && ChoicesValid(ch)
    requires Configured(cfg.secret) && AdminAccessOptions(cfg).0 && AdminAccessOptions(cfg).1
    requires db in cat && |db| > 0 && Field(db) && Field(digest(cfg.secret.value))
    requires later >= now + EffectiveTtl(ttl)
    requires forall c :: c in cat[db].store.rows ==>
      c.tokenTemp != Some(RandomToken.Generate(RandomToken.TOKEN_LENGTH, ch.shuffled))
    ensures var m := MintFor(v, cfg, digest, cat, db, ttl, now, ch);
      m.0.Minted? &&
      Redeem(v, cfg, digest, m.1, UrlToken(v, m.0.data), later) == (RedeemRefused(MissingRowStatus(v)), m.1)
  {
    var hash := digest(cfg.secret.value);
    var m := MintFor(v, cfg, digest, cat, db, ttl, now, ch);
    var d := m.0.data;
    assert d == PrepareAuthData(v, ttl, db, hash, now, ch);
    ParseMinted(v, ttl, db, hash, now, ch);
    var was := cat[db].store.rows;
    var rows := m.1[db].store.rows;
    assert rows == was + [rows[|was|]];
    forall e | e in rows
      ensures !Redeemable(e, d.tokenTemp, later)
    {
      if e !in was {
        assert e == rows[|was|];
      }
    }
  }

  /** Only the missing-row answer tells the generations apart: 404 in the
      newer add-on, 403 in its predecessor. */
  lemma VariantsRedeemAlike(cfg: Config, digest: Bytes -> Bytes, cat: Catalogue, token: Bytes, now: int)
    requires CatalogueValid(cat)
    ensures var y := Redeem(Yodoo, cfg, digest, cat, token, now);
      var i := Redeem(Infrastructure, cfg, digest, cat, token, now);
      y == i || (y == (RedeemRefused(NOT_FOUND), cat) && i == (RedeemRefused(FORBIDDEN), cat))
  {}

  /** The secret check and the URL flag are decided before any table is
      read: when either refuses, the answer is the same whatever the
      catalogue holds. */
  lemma ChecksPrecedeLookup(v: Variant, cfg: Config, digest: Bytes -> Bytes, cat1: Catalogue, cat2: Catalogue, token: Bytes, now: int)
    requires CatalogueValid(cat1) && CatalogueValid(cat2)
    requires var p := ParseToken(token);
      p.Malformed? || CheckToken(cfg.secret, digest, Some(p.hash)).Reject? || !AdminAccessOptions(cfg).0
    ensures Redeem(v, cfg, digest, cat1, token, now).0 == Redeem(v, cfg, digest, cat2, token, now).0
  {}

  /** The expiry sweep run at any time up to the redemption does not change
      what the redemption answers. */
  lemma SweepInvisibleToRedeem(v: Variant, cfg: Config, digest: Bytes -> Bytes, cat: Catalogue, n: Bytes, sweptAt: int, token: Bytes, now: int)
    requires CatalogueValid(cat) && n in cat && sweptAt <= now
    ensures var swept := cat[n := cat[n].(store := Sweep(cat[n].store, sweptAt).0)];
      CatalogueValid(swept) && Redeem(v, cfg, digest, swept, token, now).0 == Redeem(v, cfg, digest, cat, token, now).0
  {
    var swept := cat[n := cat[n].(store := Sweep(cat[n].store, sweptAt).0)];
    var p := ParseToken(token);
    assert Redeem(v, cfg, digest, swept, token, now) == RedeemParsed(v, cfg, digest, swept, p, now);
    assert Redeem(v, cfg, digest, cat, token, now) == RedeemParsed(v, cfg, digest, cat, p, now);
    if p.Parsed? && p.db == n {
      SweepPreservesLookup(cat[n].store, sweptAt, now, p.temp);
      var rows := cat[n].store.rows;
      var kept := swept[n].store.rows;
      match Lookup(rows, p.temp, now)
      case None =>
      case Some(c) =>
        assert c in kept;
        if |c.tokenUser| > 0 && |c.tokenPassword| > 0 {
          RedeemedRowLogsIn(rows, c, p.temp, now, Denied);
          RedeemedRowLogsIn(kept, c, p.temp, now, Denied);
        }
    }
  }

  /** As written, a payload with a `:` too few is a server error, where the
      intended answer is 400: base64 of `a:b` decodes to well-formed text
      that splits into two parts. */
  lemma SplitFailureIsServerError(v: Variant, cfg: Config, digest: Bytes -> Bytes, cat: Catalogue, now: int)
    requires CatalogueValid(cat)
    ensures var token := Base64.Encode([97, 58, 98]);
      Redeem(v, cfg, digest, cat, token, now) == (RedeemRefused(SERVER_ERROR), cat)
      && RedeemStrict(v, cfg, digest, cat, token, now) == (RedeemRefused(BAD_REQUEST), cat)
  {
    var payload: Bytes := [97, 58, 98];
    Base64.DecodeEncode(payload);
    AsciiIsUtf8(payload, 0);
    SplitPeel([97], COLON, [98]);
    SplitWhole([98], COLON);
    assert payload == [97] + [COLON] + [98];
  }

  /** As written, a payload that is not UTF-8 is a server error too: the
      segment `gA==`, base64 of the lone continuation byte 0x80. It holds
      no '/', so the `<token>` route passes it to the handler. */
  lemma NonUtf8IsServerError(v: Variant, cfg: Config, digest: Bytes -> Bytes, cat: Catalogue, now: int)
    requires CatalogueValid(cat)
    ensures var token := Base64.Encode([128]);
      token == [103, 65, 61, 61]
      && Redeem(v, cfg, digest, cat, token, now) == (RedeemRefused(SERVER_ERROR), cat)
      && RedeemStrict(v, cfg, digest, cat, token, now) == (RedeemRefused(BAD_REQUEST), cat)
  {
    Base64.DecodeEncode([128]);
    assert Utf8SequenceLength([128], 0) == 0;
  }

  /** The corrected redemption answers exactly as the written one, except
      that a malformed segment the written one answers with 500 gets 400. */
  lemma StrictDiffersOnlyOnMalformed(v: Variant, cfg: Config, digest: Bytes -> Bytes, cat: Catalogue, token: Bytes, now: int)
    requires CatalogueValid(cat)
    ensures var a := Redeem(v, cfg, digest, cat, token, now);
      var b := RedeemStrict(v, cfg, digest, cat, token, now);
      a == b || (a == (RedeemRefused(SERVER_ERROR), cat) && b == (RedeemRefused(BAD_REQUEST), cat) && ParseToken(token).Malformed?)
  {}
}

=== FILE: random_token.dfy ===
/** `generate_random_password`: the 62 ASCII letters and digits, three copies
    of each, shuffled, and cut to the requested length. The shuffle is the
    nondeterministic part, so the shuffled list is an input that must be a
    permutation of the three copies. */
module RandomToken {
  import opened Common

  /** `DEFAULT_LEN_TOKEN`. */
  const TOKEN_LENGTH: nat := 128

  predicate IsAlnum(c: byte) {
    48 <= c <= 57 || 65 <= c <= 90 || 97 <= c <= 122
  }

  /** The `k`-th symbol of `ascii_uppercase + ascii_lowercase + digits`. */
  function AlphabetAt(k: int): (c: byte)
    requires 0 <= k < 62
    ensures IsAlnum(c)
  {
    if k < 26 then 65 + k else if k < 52 then 97 + (k - 26) else 48 + (k - 52)
  }

  function Alphabet(): (a: Bytes)
    ensures |a| == 62
  {
    seq(62, k requires 0 <= k < 62 => AlphabetAt(k))
  }

  /** `list(ascii_uppercase + ascii_lowercase + digits) * 3`. */
  function Letters(): Bytes {
    Alphabet() + Alphabet() + Alphabet()
  }

  /** `generate_random_password(length)` once `shuffle(letters)` has produced
      `shuffled`. */
  function Generate(length: nat, shuffled: Bytes): (r: Bytes)
    requires multiset(shuffled) == multiset(Letters())
    ensures |r| == Min(length, 186)
    ensures forall k :: 0 <= k < |r| ==> IsAlnum(r[k])
    ensures forall c :: multiset(r)[c] <= 3
  {
    assert |shuffled| == |multiset(shuffled)| == |Letters()| == 186;
    var r := shuffled[..Min(length, 186)];
    assert shuffled == r + shuffled[Min(length, 186)..];
    assert multiset(r) <= multiset(Letters());
    LettersCount();
    forall k | 0 <= k < |r|
      ensures IsAlnum(r[k])
    {
      assert r[k] in multiset(Letters());
    }
    r
  }

  /** Where a letter or digit sits in the alphabet. */
  function AlphabetIndex(c: byte): (k: int)
    requires IsAlnum(c)
    ensures 0 <= k < 62 && AlphabetAt(k) == c
  {
    if 65 <= c <= 90 then c - 65 else if 97 <= c <= 122 then c - 97 + 26 else c - 48 + 52
  }

  /** Every letter or digit occurs exactly three times in `letters` and
      nothing else occurs. */
  lemma LettersCount()
    ensures forall c :: multiset(Letters())[c] <= 3
    ensures forall c: byte :: IsAlnum(c) ==> multiset(Letters())[c] == 3
    ensures forall c :: c in multiset(Letters()) ==> IsAlnum(c)
  {
    var a := Alphabet();
    assert forall i, j :: 0 <= i < j < |a| ==> a[i] != a[j];
    assert multiset(Letters()) == multiset(a) + multiset(a) + multiset(a);
    forall c: byte
      ensures multiset(Letters())[c] <= 3
      ensures IsAlnum(c) ==> multiset(Letters())[c] == 3
    {
      DistinctOnce(a, c);
      if IsAlnum(c) {
        assert a[AlphabetIndex(c)] == c;
        assert c in multiset(a);
      }
    }
    forall c | c in multiset(Letters())
      ensures IsAlnum(c)
    {
      assert c in a;
    }
  }

  /** A sequence without repetitions holds each element at most once. */
  lemma {:induction false} DistinctOnce(a: Bytes, c: byte)
    requires forall i, j :: 0 <= i < j < |a| ==> a[i] != a[j]
    ensures multiset(a)[c] <= 1
    decreases |a|
  {
    if |a| > 0 {
      DistinctOnce(a[1..], c);
      assert a == [a[0]] + a[1..];
      if a[0] == c {
        assert c !in a[1..];
      }
    }
  }
}

=== FILE: redemption.dfy ===
/** Redeeming a temporary login URL: the `temporary_auth` controller of the
    newer add-on (`Yodoo`) and of its predecessor (`Infrastructure`). The
    URL segment is base64-decoded, decoded as UTF-8 and split on `:` into
    the database name, the one-time token and the digest of the shared
    secret; then come the secret check, the `admin_access_url` flag, the
    lookup of a live row, the login and the deletion of that row. */
module Redemption {
  import opened Common
  import opened Text
  import Base64
  import opened CredentialStore
  import opened Instance
  import opened Guards
  import opened Users

  /** The URL segment once taken apart, or the status its malformation ends
      in. */
  datatype Parsed = Parsed(db: Bytes, temp: Bytes, hash: Bytes) | Malformed(status: int)

  /** The `try` block of `temporary_auth` as written: only the base64 error
      becomes 400. A payload that is not UTF-8 raises `UnicodeDecodeError` and
      one that does not split into three parts raises `ValueError`; neither is
      caught, so both end in a server error. */
  function ParseToken(token: Bytes): (p: Parsed)
    ensures Base64.Decode(token).None? <==> p == Malformed(BAD_REQUEST)
    ensures p.Malformed? ==> p.status == BAD_REQUEST || p.status == SERVER_ERROR
    ensures p.Parsed? <==>
      Base64.Decode(token).Some? && IsUtf8(Base64.Decode(token).value) && |Split(Base64.Decode(token).value, COLON)| == 3
    ensures p.Parsed? ==>
      Base64.Decode(token) == Some(Join([p.db, p.temp, p.hash], COLON))
      && COLON !in p.db && COLON !in p.temp && COLON !in p.hash
  {
    var decoded := Base64.Decode(token);
    if decoded.None? then Malformed(BAD_REQUEST)
    else if !IsUtf8(decoded.value) then Malformed(SERVER_ERROR)
    else
      var parts := Split(decoded.value, COLON);
      if |parts| != 3 then Malformed(SERVER_ERROR)
      else
        JoinSplit(decoded.value, COLON);
        assert parts == [parts[0], parts[1], parts[2]];
        Parsed(parts[0], parts[1], parts[2])
  }

  /** The evidently intended parse: every malformed segment, whatever the
      stage it fails at, is a bad request. */
  function ParseTokenStrict(token: Bytes): (p: Parsed)
    ensures p.Malformed? ==> p.status == BAD_REQUEST
    ensures p.Parsed? <==> ParseToken(token).Parsed?
    ensures p.Parsed? ==> p == ParseToken(token)
  {
    var q := ParseToken(token);
    if q.Malformed? then Malformed(BAD_REQUEST) else q
  }

  /** `authenticate(db, user, password)` records the database and what
      `_login` answers for the row's pair. */
  datatype Session = Session(db: Bytes, user: LoginResult)

  /** A redirect to `/web` carrying the new session, or a refusal. */
  datatype RedeemReply = Redirect(session: Session) | RedeemRefused(status: int)

  /** What a URL whose token matches no live row answers: `not_found()` in
      the newer add-on, `forbidden(...)` in its predecessor. */
  function MissingRowStatus(v: Variant): int {
    match v
    case Yodoo => NOT_FOUND
    case Infrastructure => FORBIDDEN
  }

  /** The rest of `temporary_auth` once the segment is parsed. `registry(db)`
      of a name the server does not have raises, so that is a server
      error. */
  function RedeemParsed(v: Variant, cfg: Config, digest: Bytes -> Bytes, cat: Catalogue, p: Parsed, now: int): (r: (RedeemReply, Catalogue))
    requires CatalogueValid(cat)
    ensures CatalogueValid(r.1)
    ensures r.0.RedeemRefused? ==> r.1 == cat
    ensures p.Malformed? ==> r.0 == RedeemRefused(p.status)
    ensures p.Parsed? && CheckToken(cfg.secret, digest, Some(p.hash)).Reject?
      ==> r.0 == RedeemRefused(CheckToken(cfg.secret, digest, Some(p.hash)).status)
    ensures p.Parsed? && CheckToken(cfg.secret, digest, Some(p.hash)).Pass? && !AdminAccessOptions(cfg).0
      ==> r.0 == RedeemRefused(FORBIDDEN)
    ensures p.Parsed? && CheckToken(cfg.secret, digest, Some(p.hash)).Pass? && AdminAccessOptions(cfg).0 && p.db !in cat
      ==> r.0 == RedeemRefused(SERVER_ERROR)
    ensures p.Parsed? && CheckToken(cfg.secret, digest, Some(p.hash)).Pass? && AdminAccessOptions(cfg).0 && p.db in cat
      && (forall c :: c in cat[p.db].store.rows ==> !Redeemable(c, p.temp, now))
      ==> r.0 == RedeemRefused(MissingRowStatus(v))
    ensures p.Parsed? && CheckToken(cfg.secret, digest, Some(p.hash)).Pass? && AdminAccessOptions(cfg).0 && p.db in cat
      && (exists c :: c in cat[p.db].store.rows && Redeemable(c, p.temp, now))
      ==> r.0.Redirect?
    ensures r.0.Redirect? ==>
      p.Parsed? && p.db in cat && CheckToken(cfg.secret, digest, Some(p.hash)).Pass? && AdminAccessOptions(cfg).0
      && exists c :: (c in cat[p.db].store.rows && Redeemable(c, p.temp, now)
        && r.0.session == Session(p.db, Login(Current, cat[p.db].store.rows, c.tokenUser, c.tokenPassword, now, Denied))
        && r.1 == cat[p.db := cat[p.db].(store := DeleteId(cat[p.db].store, c.id))])
  {
    if p.Malformed? then (RedeemRefused(p.status), cat)
    else
      var token := CheckToken(cfg.secret, digest, Some(p.hash));
      if token.Reject? then (RedeemRefused(token.status), cat)
      else if !AdminAccessOptions(cfg).0 then (RedeemRefused(FORBIDDEN), cat)
      else if p.db !in cat then (RedeemRefused(SERVER_ERROR), cat)
      else
        var base := cat[p.db];
        match Lookup(base.store.rows, p.temp, now)
        case None => (RedeemRefused(MissingRowStatus(v)), cat)
        case Some(c) =>
          var session := Session(p.db, Login(Current, base.store.rows, c.tokenUser, c.tokenPassword, now, Denied));
          (Redirect(session), cat[p.db := base.(store := DeleteId(base.store, c.id))])
  }

  /** `temporary_auth(token)` as written, at time `now`. */
  function Redeem(v: Variant, cfg: Config, digest: Bytes -> Bytes, cat: Catalogue, token: Bytes, now: int): (r: (RedeemReply, Catalogue))
    requires CatalogueValid(cat)
    ensures CatalogueValid(r.1)
    ensures r.0.RedeemRefused? ==> r.1 == cat
    ensures Base64.Decode(token).None? ==> r.0 == RedeemRefused(BAD_REQUEST)
    ensures r.0.Redirect? ==> ParseToken(token).Parsed? && ParseToken(token).db in cat
  {
    RedeemParsed(v, cfg, digest, cat, ParseToken(token), now)
  }

  /** `temporary_auth` with the parse the authors evidently intended. */
  function RedeemStrict(v: Variant, cfg: Config, digest: Bytes -> Bytes, cat: Catalogue, token: Bytes, now: int): (r: (RedeemReply, Catalogue))
    requires CatalogueValid(cat)
    ensures CatalogueValid(r.1)
    ensures r.0.RedeemRefused? ==> r.1 == cat
    ensures ParseToken(token).Malformed? ==> r.0 == RedeemRefused(BAD_REQUEST)
  {
    RedeemParsed(v, cfg, digest, cat, ParseTokenStrict(token), now)
  }
}

=== FILE: text.dfy ===
/** Text helpers: ASCII literals as bytes, Python's `str.split` with a
    one-symbol separator and `str.join`, and UTF-8 well-formedness. */
module Text {
  import opened Common

  const COLON: byte := 58
  const SLASH: byte := 47

  /** The bytes of an ASCII string literal. */
  function Ascii(s: string): (r: Bytes)
    requires forall i :: 0 <= i < |s| ==> s[i] as int < 128
    ensures |r| == |s|
    ensures forall i :: 0 <= i < |s| ==> r[i] == s[i] as int
  {
    if |s| == 0 then [] else [s[0] as int as byte] + Ascii(s[1..])
  }

  /** `s.split(sep)`: the maximal separator-free pieces, in order; a
      separator at either end or two in a row give empty pieces. */
  function Split<T(==)>(s: seq<T>, sep: T): (parts: seq<seq<T>>)
    ensures |parts| >= 1
    ensures forall k :: 0 <= k < |parts| ==> sep !in parts[k]
    decreases |s|
  {
    if |s| == 0 then [[]]
    else
      var rest := Split(s[1..], sep);
      if s[0] == sep then [[]] + rest
      else
        assert sep !in [s[0]] + rest[0];
        [[s[0]] + rest[0]] + rest[1..]
  }

  /** `sep.join(parts)`. */
  function Join<T>(parts: seq<seq<T>>, sep: T): seq<T>
    requires |parts| >= 1
    decreases |parts|
  {
    if |parts| == 1 then parts[0] else parts[0] + [sep] + Join(parts[1..], sep)
  }

  /** Joining the pieces gives the text back. */
  lemma {:induction false} JoinSplit<T>(s: seq<T>, sep: T)
    ensures Join(Split(s, sep), sep) == s
    decreases |s|
  {
    if |s| > 0 {
      JoinSplit(s[1..], sep);
      var rest := Split(s[1..], sep);
      if s[0] == sep {
        assert Split(s, sep) == [[]] + rest;
        assert s == [] + [sep] + s[1..];
      } else {
        var parts := Split(s, sep);
        assert parts == [[s[0]] + rest[0]] + rest[1..];
        if |rest| == 1 {
          assert s == [s[0]] + rest[0];
        } else {
          assert parts[1..] == rest[1..];
          assert Join(rest, sep) == rest[0] + [sep] + Join(rest[1..], sep);
          assert s == ([s[0]] + rest[0]) + [sep] + Join(rest[1..], sep);
        }
      }
    }
  }

  /** Splitting a separator-free piece followed by the separator peels that
      piece off. */
  lemma {:induction false} SplitPeel<T>(p: seq<T>, sep: T, t: seq<T>)
    requires sep !in p
    ensures Split(p + [sep] + t, sep) == [p] + Split(t, sep)
    decreases |p|
  {
    if |p| == 0 {
      assert p + [sep] + t == [sep] + t;
      assert ([sep] + t)[1..] == t;
    } else {
      SplitPeel(p[1..], sep, t);
      assert (p + [sep] + t)[1..] == p[1..] + [sep] + t;
      assert [p[0]] + p[1..] == p;
    }
  }

  /** A separator-free text is one piece. */
  lemma {:induction false} SplitWhole<T>(p: seq<T>, sep: T)
    requires sep !in p
    ensures Split(p, sep) == [p]
    decreases |p|
  {
    if |p| > 0 {
      SplitWhole(p[1..], sep);
      assert [p[0]] + p[1..] == p;
    }
  }

  /** Splitting undoes joining separator-free pieces. */
  lemma {:induction false} SplitJoin<T>(parts: seq<seq<T>>, sep: T)
    requires |parts| >= 1
    requires forall k :: 0 <= k < |parts| ==> sep !in parts[k]
    ensures Split(Join(parts, sep), sep) == parts
    decreases |parts|
  {
    if |parts| == 1 {
      SplitWhole(parts[0], sep);
    } else {
      SplitJoin(parts[1..], sep);
      SplitPeel(parts[0], sep, Join(parts[1..], sep));
      assert [parts[0]] + parts[1..] == parts;
    }
  }

  /** Joining three pieces puts one separator between neighbours. */
  lemma Join3<T>(a: seq<T>, b: seq<T>, c: seq<T>, sep: T)
    ensures Join([a, b, c], sep) == a + [sep] + (b + [sep] + c)
  {
    assert [a, b, c][1..] == [b, c];
    assert [b, c][1..] == [c];
    assert Join([b, c], sep) == b + [sep] + c;
    assert Join([a, b, c], sep) == a + [sep] + Join([b, c], sep);
  }

  /** Three separator-free pieces joined split back into themselves. */
  lemma SplitJoin3<T>(a: seq<T>, b: seq<T>, c: seq<T>, sep: T)
    requires sep !in a && sep !in b && sep !in c
    ensures Split(Join([a, b, c], sep), sep) == [a, b, c]
  {
    var parts := [a, b, c];
    assert forall k :: 0 <= k < |parts| ==> sep !in parts[k] by {
      assert parts[0] == a && parts[1] == b && parts[2] == c;
    }
    SplitJoin(parts, sep);
  }

  /** Length of the well-formed UTF-8 sequence that starts at `i`, following
      the syntax of section 4 of RFC 3629 (no overlong forms, no surrogates,
      nothing above U+10FFFF), or 0 when none starts there. */
  function Utf8SequenceLength(b: Bytes, i: nat): (n: nat)
    requires i < |b|
    ensures n <= 4 && i + n <= |b|
    ensures n == 1 <==> b[i] < 0x80
  {
    var b0 := b[i];
    if b0 < 0x80 then 1
    else if 0xC2 <= b0 <= 0xDF then
      (if i + 1 < |b| && IsTail(b[i + 1]) then 2 else 0)
    else if 0xE0 <= b0 <= 0xEF then
      var lo := if b0 == 0xE0 then 0xA0 else 0x80;
      var hi := if b0 == 0xED then 0x9F else 0xBF;
      (if i + 2 < |b| && lo <= b[i + 1] <= hi && IsTail(b[i + 2]) then 3 else 0)
    else if 0xF0 <= b0 <= 0xF4 then
      var lo := if b0 == 0xF0 then 0x90 else 0x80;
      var hi := if b0 == 0xF4 then 0x8F else 0xBF;
      (if i + 3 < |b| && lo <= b[i + 1] <= hi && IsTail(b[i + 2]) && IsTail(b[i + 3]) then 4 else 0)
    else 0
  }

  predicate IsTail(x: byte) {
    0x80 <= x <= 0xBF
  }

  /** The bytes from `i` on are a sequence of well-formed UTF-8 characters. */
  predicate IsUtf8From(b: Bytes, i: nat)
    requires i <= |b|
    decreases |b| - i
  {
    i == |b| || (Utf8SequenceLength(b, i) > 0 && IsUtf8From(b, i + Utf8SequenceLength(b, i)))
  }

  /** What Python's strict `bytes.decode('utf-8')` accepts. */
  predicate IsUtf8(b: Bytes) {
    IsUtf8From(b, 0)
  }

  predicate IsAscii(b: Bytes) {
    forall k :: 0 <= k < |b| ==> b[k] < 0x80
  }

  /** ASCII text always decodes. */
  lemma {:induction false} AsciiIsUtf8(b: Bytes, i: nat)
    requires i <= |b|
    requires IsAscii(b)
    ensures IsUtf8From(b, i)
    decreases |b| - i
  {
    if i < |b| {
      AsciiIsUtf8(b, i + 1);
    }
  }

  /** `lower()` on ASCII letters; every other byte is left alone. */
  function Lower(b: Bytes): (r: Bytes)
    ensures |r| == |b|
    ensures forall k :: 0 <= k < |b| ==> r[k] == (if 65 <= b[k] <= 90 then b[k] + 32 else b[k])
  {
    seq(|b|, k requires 0 <= k < |b| => if 65 <= b[k] <= 90 then b[k] + 32 else b[k])
  }

  predicate HasUpper(b: Bytes) {
    exists k :: 0 <= k < |b| && 65 <= b[k] <= 90
  }

  /** Lower-casing leaves no upper-case letter behind. */
  lemma LowerHasNoUpper(b: Bytes)
    ensures !HasUpper(Lower(b))
  {}

  /** A well-formed sequence that starts inside `a` reads only bytes of `a`,
      so appending to `a` does not change its length. */
  lemma SequenceLengthPrefix(a: Bytes, c: Bytes, i: nat)
    requires i < |a| && Utf8SequenceLength(a, i) > 0
    ensures Utf8SequenceLength(a + c, i) == Utf8SequenceLength(a, i)
  {
    var n := Utf8SequenceLength(a, i);
    assert forall k :: i <= k < i + n ==> (a + c)[k] == a[k];
  }

  /** Prepending `a` shifts every sequence of `b` by `|a|`. */
  lemma SequenceLengthShift(a: Bytes, b: Bytes, j: nat)
    requires j < |b|
    ensures Utf8SequenceLength(a + b, |a| + j) == Utf8SequenceLength(b, j)
  {
    assert forall k :: j <= k < |b| ==> (a + b)[|a| + k] == b[k];
  }

  lemma {:induction false} Utf8Shift(a: Bytes, b: Bytes, j: nat)
    requires j <= |b| && IsUtf8From(b, j)
    ensures IsUtf8From(a + b, |a| + j)
    decreases |b| - j
  {
    if j < |b| {
      SequenceLengthShift(a, b, j);
      Utf8Shift(a, b, j + Utf8SequenceLength(b, j));
    }
  }

  lemma {:induction false} Utf8AppendFrom(a: Bytes, b: Bytes, i: nat)
    requires i <= |a| && IsUtf8From(a, i) && IsUtf8(b)
    ensures IsUtf8From(a + b, i)
    decreases |a| - i
  {
    if i == |a| {
      Utf8Shift(a, b, 0);
    } else {
      SequenceLengthPrefix(a, b, i);
      Utf8AppendFrom(a, b, i + Utf8SequenceLength(a, i));
    }
  }

  /** Well-formed UTF-8 is closed under concatenation: the encodings of two
      strings, one after the other, decode. */
  lemma Utf8Append(a: Bytes, b: Bytes)
    requires IsUtf8(a) && IsUtf8(b)
    ensures IsUtf8(a + b)
  {
    Utf8AppendFrom(a, b, 0);
  }
}

=== FILE: users.dfy ===
/** The `res.users` overrides that let a minted token pair log in.
    `Current` is the `_login` of both add-on generations (the pair must be
    live); `Oldest` is the original override, which compares lower-cased
    stored tokens with the supplied ones and never looks at `expire`. The
    parent implementation is a parameter: what `super()._login` or
    `super()._check_credentials` would answer. */
module Users {
  import opened Common
  import opened Text
  import opened CredentialStore

  /** `_login` answers a user id or `False`. */
  datatype LoginResult = Denied | Uid(uid: nat)

  const SUPERUSER_ID: nat := 1

  datatype LoginVariant = Current | Oldest

  /** The row condition of the `_login` query. */
  predicate PairMatches(v: LoginVariant, c: Credential, login: Bytes, password: Bytes, now: int) {
    match v
    case Current => c.tokenUser == login && c.tokenPassword == password && Live(c, now)
    case Oldest => Lower(c.tokenUser) == login && Lower(c.tokenPassword) == password
  }

  /** Whether the `_login` query returns a row. */
  function AnyPair(v: LoginVariant, rows: seq<Credential>, login: Bytes, password: Bytes, now: int): (r: bool)
    ensures r <==> exists c :: c in rows && PairMatches(v, c, login, password, now)
    decreases |rows|
  {
    if |rows| == 0 then false
    else if PairMatches(v, rows[0], login, password, now) then true
    else
      assert forall c :: c in rows <==> c == rows[0] || c in rows[1..];
      AnyPair(v, rows[1..], login, password, now)
  }

  /** `_login(db, login, password)`: an empty login or password is refused
      outright, a matching token pair is the superuser, anything else is the
      parent's answer. */
  function Login(v: LoginVariant, rows: seq<Credential>, login: Bytes, password: Bytes, now: int, parent: LoginResult): (r: LoginResult)
    ensures |login| == 0 || |password| == 0 ==> r == Denied
    ensures |login| > 0 && |password| > 0 && (exists c :: c in rows && PairMatches(v, c, login, password, now))
      ==> r == Uid(SUPERUSER_ID)
    ensures |login| > 0 && |password| > 0 && (forall c :: c in rows ==> !PairMatches(v, c, login, password, now))
      ==> r == parent
  {
    if |login| == 0 || |password| == 0 then Denied
    else if AnyPair(v, rows, login, password, now) then Uid(SUPERUSER_ID)
    else parent
  }

  /** `_check_credentials(password)` (`check_credentials` in the
      predecessor): any row's `token_password` is accepted, live or not;
      otherwise the parent decides. `true` means no `AccessDenied`. */
  function CheckCredentials(rows: seq<Credential>, password: Bytes, parentAccepts: bool): (ok: bool)
    ensures ok <==> parentAccepts || exists c :: c in rows && c.tokenPassword == password
    decreases |rows|
  {
    if |rows| == 0 then parentAccepts
    else if rows[0].tokenPassword == password then true
    else
      assert forall c :: c in rows <==> c == rows[0] || c in rows[1..];
      CheckCredentials(rows[1..], password, parentAccepts)
  }

  /** A row past its `expire` no longer logs in through `_login`, yet its
      password still passes the credential check the session performs
      later. */
  lemma ExpiredPasswordStillChecks(rows: seq<Credential>, c: Credential, now: int)
    requires c in rows && !Live(c, now) && |c.tokenUser| > 0 && |c.tokenPassword| > 0
    requires forall d :: d in rows && d.tokenUser == c.tokenUser && d.tokenPassword == c.tokenPassword ==> d == c
    ensures Login(Current, rows, c.tokenUser, c.tokenPassword, now, Denied) == Denied
    ensures CheckCredentials(rows, c.tokenPassword, false)
  {}

  /** The oldest override has no expiry condition: an expired row whose
      tokens are lower case still yields the superuser. */
  lemma OldestIgnoresExpiry(rows: seq<Credential>, c: Credential, now: int)
    requires c in rows && !Live(c, now) && |c.tokenUser| > 0 && |c.tokenPassword| > 0
    requires Lower(c.tokenUser) == c.tokenUser && Lower(c.tokenPassword) == c.tokenPassword
    ensures Login(Oldest, rows, c.tokenUser, c.tokenPassword, now, Denied) == Uid(SUPERUSER_ID)
  {
    assert PairMatches(Oldest, c, c.tokenUser, c.tokenPassword, now);
  }

  /** In the oldest override a login holding an upper-case letter never
      matches a row, because the stored side is lower-cased and the supplied
      side is not: such a request always falls through to the parent. */
  lemma OldestUpperCaseFallsThrough(rows: seq<Credential>, login: Bytes, password: Bytes, now: int, parent: LoginResult)
    requires |password| > 0 && HasUpper(login)
    ensures Login(Oldest, rows, login, password, now, parent) == parent
  {
    forall c | c in rows
      ensures !PairMatches(Oldest, c, login, password, now)
    {
      LowerHasNoUpper(c.tokenUser);
    }
  }

  /** The row a redemption selected logs in as the superuser. */
  lemma RedeemedRowLogsIn(rows: seq<Credential>, c: Credential, temp: Bytes, now: int, parent: LoginResult)
    requires c in rows && Redeemable(c, temp, now) && |c.tokenUser| > 0 && |c.tokenPassword| > 0
    ensures Login(Current, rows, c.tokenUser, c.tokenPassword, now, parent) == Uid(SUPERUSER_ID)
  {
    assert PairMatches(Current, c, c.tokenUser, c.tokenPassword, now);
  }
}

=== FILE: version_info.dfy ===
/** The add-on's version as `version_info` reports it: the manifest version
    split on '.', the serie being its first two components and the client
    version its last three (Python slices `[0:2]` and `[-3:]`, which take
    what there is when the version is shorter). */
module VersionInfo {
  import opened Common
  import opened Text

  /** `'.'.join(version.split('.')[0:2])`. */
  function Serie(version: string): (r: string)
    ensures Split(r, DOT_CHAR) == Split(version, DOT_CHAR)[..Min(2, |Split(version, DOT_CHAR)|)]
  {
    var parts := Split(version, DOT_CHAR);
    SplitJoin(parts[..Min(2, |parts|)], DOT_CHAR);
    Join(parts[..Min(2, |parts|)], DOT_CHAR)
  }

  /** `'.'.join(version.split('.')[-3:])`. */
  function ClientVersion(version: string): (r: string)
    ensures var parts := Split(version, DOT_CHAR);
      Split(r, DOT_CHAR) == parts[|parts| - Min(3, |parts|)..]
  {
    var parts := Split(version, DOT_CHAR);
    SplitJoin(parts[|parts| - Min(3, |parts|)..], DOT_CHAR);
    Join(parts[|parts| - Min(3, |parts|)..], DOT_CHAR)
  }

  /** Joining two runs of pieces is joining each and putting one separator
      between them. */
  lemma {:induction false} JoinAppend<T>(a: seq<seq<T>>, b: seq<seq<T>>, sep: T)
    requires |a| >= 1 && |b| >= 1
    ensures Join(a + b, sep) == Join(a, sep) + [sep] + Join(b, sep)
    decreases |a|
  {
    if |a| == 1 {
      assert (a + b)[1..] == b;
    } else {
      JoinAppend(a[1..], b, sep);
      assert (a + b)[1..] == a[1..] + b;
    }
  }

  /** The serie is the leading part of the version: what follows it is
      nothing, or a '.' and the remaining components. */
  lemma SerieIsPrefix(version: string)
    ensures var parts := Split(version, DOT_CHAR);
      version == Serie(version) + (if |parts| <= 2 then [] else [DOT_CHAR] + Join(parts[2..], DOT_CHAR))
  {
    var parts := Split(version, DOT_CHAR);
    JoinSplit(version, DOT_CHAR);
    if |parts| > 2 {
      JoinAppend(parts[..2], parts[2..], DOT_CHAR);
      assert parts[..2] + parts[2..] == parts;
    } else {
      assert parts[..Min(2, |parts|)] == parts;
    }
  }

  /** The client version is the trailing part of the version: what comes
      before it is nothing, or the leading components and a '.'. */
  lemma ClientVersionIsSuffix(version: string)
    ensures var parts := Split(version, DOT_CHAR);
      version == (if |parts| <= 3 then [] else Join(parts[..|parts| - 3], DOT_CHAR) + [DOT_CHAR]) + ClientVersion(version)
  {
    var parts := Split(version, DOT_CHAR);
    JoinSplit(version, DOT_CHAR);
    if |parts| > 3 {
      JoinAppend(parts[..|parts| - 3], parts[|parts| - 3..], DOT_CHAR);
      assert parts[..|parts| - 3] + parts[|parts| - 3..] == parts;
    } else {
      assert parts[|parts| - Min(3, |parts|)..] == parts;
    }
  }

  /** For the five-component versions the add-ons carry (`<odoo serie>.<x>.<y>.<z>`),
      serie and client version share nothing and together spell the version. */
  lemma FiveComponents(version: string)
    requires |Split(version, DOT_CHAR)| == 5
    ensures version == Serie(version) + [DOT_CHAR] + ClientVersion(version)
  {
    var parts := Split(version, DOT_CHAR);
    SerieIsPrefix(version);
    assert parts[2..] == parts[|parts| - Min(3, |parts|)..];
  }
}
